=== FILE: README.md ===
# inputdicthelper: the merge and validate engine in Dafny

`inputdicthelper` reads a configuration document (a YAML mapping or an INI
file) and checks it against a declarative schema. A schema is a list of
field descriptors. Each descriptor has a key, a required flag, a type slot,
a default and a validator. The engine builds the output record field by
field:

- it fails on a missing required key;
- it takes the raw value, or the default when the key is absent;
- it recurses into nested sub-schemas;
- it type-checks each value;
- it merges list elements against an element schema;
- it runs one-argument validators on each field, then two-argument validators
  on the finished record;
- it finally rejects keys no descriptor names.

A second merger does the same for INI files, whose values are strings. It
coerces each string to the type its descriptor names. A generator builds the
default-populated document a schema describes.

This project models that engine as pure functions over immutable datatypes.
It proves what each operation guarantees and how the operations relate.

| file | module | contents |
|---|---|---|
| outcomes.dfy | `Outcomes` | `Result`, `Option`, one `Error` constructor per way a call stops |
| values.dfy | `Values` | Python values, `isinstance`, Python `==` and `in` |
| literals.dfy | `Literals` | `repr` for the literal subset, a reader for `ast.literal_eval`, and the proof that reading a repr gives the value back |
| schemas.dfy | `Schemas` | descriptors, validators, `splitvalidateout`, `checkInList` |
| templates.dfy | `Templates` | `template2dict` without its comment output |
| merge.dfy | `Merge` | `mergedict` |
| merge_facts.dfy | `MergeFacts` | properties of merged records and of the two flags |
| roundtrip.dfy | `DefaultsRoundTrip` | merging a schema's generated defaults reproduces them |
| coercion.dfy | `Coercion` | `str.strip` and `convertstring` |
| config.dfy | `Config` | `mergeconfig` |
| config_facts.dfy | `ConfigFacts` | properties of the INI merger and its agreement with `mergedict` |
| scenarios.dfy, ini_scenarios.dfy | `Scenarios`, `IniScenarios` | the unit tests' schemas and documents, evaluated |

How Python's dynamic slots are modelled:

- **The type slot** is a `TypeSpec`:
  - `Untyped` is `None`.
  - `Single` is one class.
  - `Tuple` is a tuple of classes. An empty tuple is falsy and checks nothing.
  - `ListMarker` is `[]`. It is falsy, so it checks nothing, but the generator treats it as "list of elements".
  - `Nested` is `{}`. It carries the default slot: `PassThrough` for the literal `{}`, or the sub-schema.
- **The validator slot** is a `Validator`. A one-argument callable is `Local`, a two-argument callable is `Cross`, and a list of descriptors is `Elements`. This tag replaces the arity test the source makes with `inspect.signature`.
- **A validator's answer** is a `Verdict`: a bare flag, or a flag with a message.
- **Each Python exception** that stops a call is an `Error` constructor, for example:
  - `NotAMapping`: the raw document has no `.keys()`;
  - `AbsentPassThrough`: the `KeyError` on a missing pass-through field;
  - `NotIterable`: the generator iterating a callable;
  - `NotCallable`: the INI merger taking the signature of a list;
  - `MalformedLiteral`: `ast.literal_eval` failing.

Behaviours of the code that its call sites do not make obvious, all kept by
the model:

- **Flag forwarding.**
  - The nested merge at inputdicthelper.py:127 passes `checkunused` on but not `validate`, so a nested record is always validated, even when the outer merge is not (`MergeFacts.NestedEntry`).
  - The nested merge at inputdicthelper.py:184 passes neither flag, so a nested INI section is always validated, even when the outer merge is not (`ConfigFacts.NestedConfigEntry`).
- **Optional fields in templates.** The recursive calls at inputdicthelper.py:90 and :92 do not pass `includeoptional`, so a nested template holds every sub-field, optional ones included, whatever the outer call asked for (`Templates.NestedTemplateComplete`).
- **Element-schema templates.** For a `[]` typed field with an element schema, inputdicthelper.py:91-92 emits the element schema's template, one mapping, not a list (`Templates.ElementTemplateIsMapping`).
- **The defaults round trip.** Merging a schema's full template against the schema reproduces the template when the schema is settled (`DefaultsRoundTrip.TemplateMergesToItself`): its keys are unique, its template can be generated, every descriptor's template entry passes that descriptor's own checks unchanged (and its sub-schema, if any, is settled), and every two-argument validator accepts the template. Each part is needed: `dictdefs` is a list, so two descriptors may share a key, and the later default then faces the earlier descriptor's type check (`DefaultsRoundTrip.DuplicateKeyRejected`); and a two-argument validator may reject the defaults taken together. The condition is sufficient, not necessary: with validation off, a default that fails its own type check still passes through. With validation on, such a default makes the merge fail at inputdicthelper.py:131-132 (`DefaultsRoundTrip.UnsettledDefaultRejected`).

## Model

| member | source | states |
|---|---|---|
| Schemas.SplitVerdict | inputdicthelper.py:160-167 | The flag is the validator's flag. The message is the pair's message, or empty for a bare flag. |
| Schemas.VerdictShapesAgree | inputdicthelper.py:160-167 | Re-packing any verdict as a pair splits the same way, and a bare flag splits like that flag paired with the empty message. |
| Schemas.CheckInList | inputdicthelper.py:66-73 | The verdict passes exactly when `x` is Python-equal to some element of `l`. A member gives `(True, "")`. A non-member gives the message `repr(x) + " is not one of " + repr(l)`. |
| Schemas.ChoicesAccepted | inputdicthelper.py:70-71 | Every listed choice passes the choice validator with `(True, "")`. |
| Templates.Template | inputdicthelper.py:85-94 | On success the keys are exactly the required keys, plus the optional keys when asked for. The only failure is `NotIterable`. |
| Templates.TemplateSucceeds | inputdicthelper.py:88-94 | Generation succeeds if and only if no included descriptor, at any depth, pairs the `[]` type with a callable validator. |
| Templates.TemplateEntry | inputdicthelper.py:88-94 | With unique keys, each included key holds its own descriptor's entry. |
| Templates.NestedTemplateComplete | inputdicthelper.py:89-90 | A nested field's template holds every field of its sub-schema, optional ones included, whatever the outer flag. |
| Templates.ElementTemplateIsMapping | inputdicthelper.py:91-92 | A `[]` field with a non-empty element schema gets one mapping with the element schema's keys, not a list. |
| Templates.PlainTemplateEntry | inputdicthelper.py:88-94 | With unique keys, an included field that is neither nested nor a `[]` typed field with a non-empty element schema holds its own default in the template. |
| Merge.MergeDict | inputdicthelper.py:104-158 | A raw value that is neither `None` nor a mapping is rejected. On success: the keys are exactly the schema's keys; every required key was in the raw mapping; with the unused-key check, no raw key lies outside the schema; with validation, every two-argument validator accepts the complete record. With the check off, no unused-key error can occur, at any depth. When a merge succeeds is stated, for schemas without nesting, by `MergeFacts.FlatMergeSucceeds`. |
| Merge.ResolveFields | inputdicthelper.py:111-143 | The loop adds exactly the schema's keys to the accumulator. It keeps earlier entries the schema does not name. On success every required key was present. |
| Merge.ResolveField | inputdicthelper.py:113-141 | A missing required key fails with `MissingRequired` before anything else. A validated entry conforms to its type and passes its one-argument validator. |
| Merge.SelectValue | inputdicthelper.py:117-127 | A present nested sub-schema field yields the validated merge of its raw value against the sub-schema, with the outer unused-key flag; an absent one yields the sub-schema's complete template. Either way the mapping has exactly the sub-schema's keys. A pass-through field succeeds exactly when its key is present, and then yields the raw value. Any other field yields its raw value, or its default when the key is absent. |
| Merge.CheckValue | inputdicthelper.py:129-141 | A type mismatch fails with `TypeMismatch`. A value that passes the type check (always so for a `None`, `[]`, `{}` or `()` type slot, line 131) and is not a list facing an element schema succeeds exactly when the one-argument validator accepts it, and then is returned unchanged. Otherwise the failure is `LocalValidationFailed` with the validator's message. A list facing an element schema succeeds exactly when every element merges; it becomes a list of the same length whose i-th item is the validated merge of the i-th element against the element schema, without the unused-key check, and a failure is the first failing element's error. |
| Merge.MergeElements | inputdicthelper.py:134-136 | Each element becomes its validated merge against the element schema, without the unused-key check. The length is kept. The result succeeds exactly when every element merges, and a failure is the error of the first element that fails. |
| Merge.CrossFailure | inputdicthelper.py:145-152 | The answer is none exactly when every two-argument validator accepts the record. Otherwise it is a `GlobalValidationFailed` naming the first field, in declaration order, whose validator rejects, with that validator's message. |
| MergeFacts.RecordEntry | inputdicthelper.py:111-141 | With unique keys, each key of a merged record holds what its own descriptor resolved to. |
| MergeFacts.PlainEntry | inputdicthelper.py:117-119 | A field that is neither nested nor element-validated keeps a present raw value, and otherwise takes its default. |
| MergeFacts.ValidatedEntry | inputdicthelper.py:129-141 | With validation, every entry conforms to a checked type and passes its one-argument validator. That validator is given the entry alone. |
| MergeFacts.AbsentNestedEntry | inputdicthelper.py:127 | A nested field whose key is absent holds the complete template of its sub-schema, optional fields included. |
| MergeFacts.NestedEntry | inputdicthelper.py:125-127 | A present nested field holds the merge of its raw value against the sub-schema, with validation on. The sub-record satisfies its two-argument validators even when the outer merge does not validate. |
| MergeFacts.PassThroughEntry | inputdicthelper.py:122-124 | A field whose nested default is `{}` must be present. Its raw value is copied unmerged. |
| MergeFacts.UnusedCheckOnlyRejects | inputdicthelper.py:155-157 | A merge that succeeds with the unused-key check gives the same result without it. |
| MergeFacts.ExtraKeysIgnored | inputdicthelper.py:110-157 | Without the unused-key check, the outcome equals that of the document restricted to the schema's keys. |
| MergeFacts.CrossOrderIrrelevant | inputdicthelper.py:145-152 | Take two schemas in which every descriptor of each occurs in the other. The global pass accepts the same record under both, so the declaration order does not matter for whether it accepts. |
| MergeFacts.FlatFields | inputdicthelper.py:111-143 | Over descriptors that are not nested, the per-field loop succeeds when every required key is present and, when validating, every chosen entry passes its checks; it then writes each chosen entry (the raw value, or the default when absent). |
| MergeFacts.FlatMergeSucceeds | inputdicthelper.py:104-158 | On a schema with no nested descriptor the merge succeeds when the raw value is a mapping or `None`, every required key is present and, when validating, every chosen entry passes its checks and every two-argument validator accepts the record. It then returns the record of chosen entries, unless the unused-key check is on and finds undeclared keys; the error then names exactly the raw keys outside the schema. |
| DefaultsRoundTrip.TemplateMergesToItself | inputdicthelper.py:104-158 | Merging a settled schema's full template against the schema, with the unused-key check on, returns the template. Settled means: unique keys, a template that can be generated, every descriptor's template entry passing its own checks unchanged (sub-schemas settled in turn), and every two-argument validator accepting the template. |
| DefaultsRoundTrip.DuplicateKeyRejected | inputdicthelper.py:131-132 | For any two descriptors, neither nested and both with checked type slots, that share a key, where the second's default fails the first's type: the template holds the second default under that key, and merging it with validation fails with `TypeMismatch` on that key, even when each descriptor accepts its own default. |
| DefaultsRoundTrip.UnsettledDefaultRejected | inputdicthelper.py:131-132 | For any lone descriptor, not nested, with a checked type slot and a default that fails that type: the template is the default alone, and merging that template with validation fails with `TypeMismatch` on the descriptor's key. |
| Coercion.Strip | inputdicthelper.py:42 | The result is a slice of the input. Only whitespace is cut from either end, and the result neither starts nor ends with whitespace. |
| Coercion.StripIdempotent | inputdicthelper.py:42 | Stripping twice is stripping once. |
| Coercion.StripClean | inputdicthelper.py:42 | A string with no whitespace at either end strips to itself. |
| Coercion.ConvertString | inputdicthelper.py:34-44 | A non-string passes unchanged. Under `None`, `str` or a nested type, a string is stripped (see `Coercion.Strip`). Under any other type, conversion succeeds exactly when the literal reader accepts the text, and then yields what the reader read. The only error is `MalformedLiteral`. |
| Coercion.ConvertIdempotent | inputdicthelper.py:38-42 | Converting a typed value, or converting under a stripping type, a second time changes nothing. |
| Coercion.ConvertRepr | inputdicthelper.py:43-44 | Under a type that evaluates literals, the printed form of a literal converts back to it. |
| Literals.LiteralEvalOfRepr | inputdicthelper.py:43 | Reading the `repr` of a literal gives back the literal: None, bools, ints, strings of printable ASCII without a backslash and not holding both quote kinds, and lists of these. |
| Literals.Repr | inputdicthelper.py:73 | The printed form is never empty. A string prints between two equal quote characters, a list between brackets, and an integer starts with `-` exactly when it is negative. `Literals.LiteralEvalOfRepr` reads it back. |
| Literals.LiteralEval | inputdicthelper.py:43 | What the reader accepts is never a mapping, at any depth, and its strings hold no backslash, no line break (line feed or carriage return) and no NUL character. Text made only of whitespace is malformed. |
| Config.MergeConfig | inputdicthelper.py:169-203 | Anything but a mapping, `None` included, is rejected. On success: the keys are exactly the schema's keys, and every required key was present. With validation, no descriptor carries an element schema and every two-argument validator accepts the record. An unused-key error never occurs. When a merge succeeds is stated, for sections without nesting, by `ConfigFacts.FlatConfigSucceeds`. |
| Config.ConfigFields | inputdicthelper.py:174-194 | The loop adds exactly the schema's keys to the accumulator. It keeps earlier entries the schema does not name. On success every required key was present. |
| Config.ConfigField | inputdicthelper.py:176-194 | A missing required key fails with `MissingRequired`. A validated entry conforms to its type and passes its one-argument validator. |
| Config.ConfigValue | inputdicthelper.py:180-184 | A pass-through field yields an empty mapping. A present nested sub-schema yields the INI merge of its section against the sub-schema with the default flags, so with validation on; an absent one yields the sub-schema's complete template. Either way the mapping has exactly the sub-schema's keys. Any other field is the coercion of the raw string or of the default. |
| Config.ConfigCheck | inputdicthelper.py:186-194 | A type mismatch fails with `TypeMismatch`. A value that passes the type check (always so for a `None`, `[]`, `{}` or `()` type slot, line 188) fails with `NotCallable` when the validator slot holds an element schema. Otherwise it succeeds exactly when the one-argument validator accepts it, and is then returned unchanged; a rejection is `LocalValidationFailed` with the validator's message. |
| ConfigFacts.ConfigEntry | inputdicthelper.py:180-182 | A non-nested field of an INI record holds the coercion of its raw value, or of its default when absent. |
| ConfigFacts.NestedConfigEntry | inputdicthelper.py:184 | A present nested field of an INI record holds the merge of its section against the sub-schema with the default flags, so with validation on, and that sub-record satisfies its two-argument validators even when the outer merge does not validate. |
| ConfigFacts.AbsentNestedConfigEntry | inputdicthelper.py:184 | An absent nested field of an INI record holds the complete template of its sub-schema. |
| ConfigFacts.PassThroughDropped | inputdicthelper.py:184 | A pass-through field of an INI record is always the empty mapping. |
| ConfigFacts.ConfigMatchesMerge | inputdicthelper.py:169-203 | Take a document and schema with no strings to coerce, no nesting and no element schemas. There the INI merger gives the same outcome as `mergedict` with the unused-key check off. |
| ConfigFacts.FlatConfigFields | inputdicthelper.py:174-194 | Over descriptors that are not nested, the INI loop succeeds when every required key is present, every entry coerces and, when validating, no descriptor carries an element schema and every coerced entry passes its checks; it then writes the coerced entries. |
| ConfigFacts.FlatConfigSucceeds | inputdicthelper.py:169-203 | On a section with no nested descriptor the INI merge succeeds when the section is a mapping, every required key is present, every entry coerces and, when validating, no descriptor carries an element schema, every coerced entry passes its checks and every two-argument validator accepts the record. It then returns the record of coerced entries; undeclared keys never make it fail. |
| Scenarios.DictIngestion | tests/unit_tests/unit_test.py:50-66 | The test document merges to the expected record. Defaults are filled in, the nested mapping is merged, and the extra key is dropped. |
| Scenarios.DictIngestionUnused | inputdicthelper.py:155-157 | With the unused-key check, the same document fails with the unused key set `{"extrakey"}`. |
| Scenarios.CrossFieldRejection | tests/unit_tests/unit_test.py:29-32 | With `intval` 0 and the default `floatval` 0.123, the sum validator rejects the record with an empty message. |
| Scenarios.CrossFieldUnchecked | inputdicthelper.py:145-146 | Without validation the same document merges. |
| Scenarios.BoolPassesIntCheck | inputdicthelper.py:131-132 | `True` passes an `int` type check. |
| IniScenarios.IniIngestion | tests/unit_tests/unit_test.py:97-115 | The test's INI sections merge to the expected nested record, with every string coerced. |
| IniScenarios.ZeroCoerced | tests/unit_tests/unit_test.py:101 | `"0"` under `int` becomes `0`. |
| IniScenarios.TrueCoerced | tests/unit_tests/unit_test.py:103 | `"True"` under `bool` becomes `True`. |
| IniScenarios.FloatCoerced | tests/unit_tests/unit_test.py:102 | `"200.123"` under `(int, float)` becomes the decimal 200.123. |
| IniScenarios.ListCoerced | tests/unit_tests/unit_test.py:107 | `"[1, 2, 3]"` under `[]` becomes the list `[1, 2, 3]`. |

## Left out

- YAML and INI reading and writing, `dumpyaml`, `dumpini`, file handles, `checkPathExists`, `loadyamlstring` and `stringReplaceDict`. These are library I/O, or a text preprocessor outside the engine.
- The comment output of `template2dict`: the start comment and the per-field help comments. These are calls into the YAML library.
- The `help` slot of a descriptor, which only feeds those comments.
- `copy.deepcopy` of the schema (inputdicthelper.py:256, once, when the helper object is built), and the in-place rewrite of the list during the element merge (line 136). With immutable values the aliasing they concern does not arise. In the source, when the key is absent, the list being rewritten is the descriptor's own default (line 119), so a merge overwrites the schema's default list and later merges with the same schema see the merged mappings; the model always starts from the declared default.
- Validators of other arities, which the source silently skips. Also left out are validator results that are neither a flag nor a pair, and validators that raise. Only the tagged `Local`, `Cross` and `Elements` kinds exist.
- A type slot holding a non-empty list, and a nested default that is neither `{}` nor a list of descriptors. On these Python raises inside `isinstance` or while iterating.
- A type slot holding a non-empty dict. It takes the nested branch at inputdicthelper.py:117 and then, with validation on, raises inside `isinstance` at line 131. `Nested` models only the empty dict.
- Keys that are not strings. A `Dict` maps strings to values, so a YAML mapping with integer or boolean keys cannot be written down; inputdicthelper.py:156-157 would report such keys as unused.
- The insertion order of Python dicts. Records are maps, and the unused keys are reported as a set rather than a list.
- The text of error messages, apart from the validator messages carried in the validation errors.
- Floats are exact reals, so binary rounding is not modelled.
- configparser's key lower-casing, interpolation and inheritance of `DEFAULT` entries. A parsed INI file is a mapping from section names to mappings of strings.
- Literals.LiteralEval: the reader covers `None`, `True`, `False`, optionally signed decimal integers, floats written as digits, a point and optional digits (`1.5`, `5.`), quoted strings without escapes, line breaks or NUL characters, and lists. Not read, so rejected with `MalformedLiteral` where Python reads them: floats starting with the point (`.5`), exponents, hexadecimal, octal and binary integers (`0x10`), digit separators (`1_000`), escapes, string prefixes (`u'x'`, `r'x'`), triple-quoted strings, adjacent strings that Python concatenates (`'a' 'b'`), complex numbers (`1j`), parenthesised literals (`(1)`), the ellipsis `...`, a sign separated by spaces, tuples, dicts, sets and bytes. The round trip is proved for the literal subset without floats.
- Coercion.ConvertString: configparser keeps an inline comment as part of the value, and Python's `literal_eval` skips it (`1 # note` under `int` gives 1). The literal reader does not skip comments, so such a value is a `MalformedLiteral` error here.
- Literals.Repr: floats print positionally, with at most 17 fraction digits (truncated), rather than in Python's shortest round-trip form with exponents. Non-empty dicts print as `{...}`. A string escapes only the backslash, its quote, newline, carriage return and tab; Python's `repr` also escapes other control and non-printable characters (`\x07`, `\x7f`, ...). These only affect the message of `Schemas.CheckInList`.
- Scenarios.NonNegative and Scenarios.SumAtLeast200: where Python would raise on a non-number, they reject.

=== FILE: coercion.dfy ===
/** `convertstring`: the coercion of an INI string to the Python value its
    descriptor's type slot asks for. */
module Coercion {
  import opened Values
  import opened Outcomes
  import opened Schemas
  import Literals

  /** The characters `str.strip()` removes: those `str.isspace()` accepts. */
  predicate IsWhitespace(c: char) {
    var n := c as int;
    (9 <= n <= 13) || (28 <= n <= 32) || n == 0x85 || n == 0xA0 || n == 0x1680 ||
    (0x2000 <= n <= 0x200A) || n == 0x2028 || n == 0x2029 || n == 0x202F || n == 0x205F || n == 0x3000
  }

  /** Every character of `s` in `[from, to)` is whitespace. */
  predicate WhitespaceBetween(s: string, from: int, to: int) {
    forall k :: from <= k < to && 0 <= k < |s| ==> IsWhitespace(s[k])
  }

  /** The length of the whitespace run that starts `s`. */
  function LeadingWhitespace(s: string): (n: nat)
    ensures n <= |s|
    ensures WhitespaceBetween(s, 0, n)
    ensures n == |s| || !IsWhitespace(s[n])
  {
    if |s| == 0 || !IsWhitespace(s[0]) then 0
    else
      var n := 1 + LeadingWhitespace(s[1..]);
      assert forall k :: 1 <= k < n ==> s[k] == s[1..][k - 1];
      n
  }

  /** The length of the whitespace run that ends `s`. */
  function TrailingWhitespace(s: string): (n: nat)
    ensures n <= |s|
    ensures WhitespaceBetween(s, |s| - n, |s|)
    ensures n == |s| || !IsWhitespace(s[|s| - n - 1])
  {
    if |s| == 0 || !IsWhitespace(s[|s| - 1]) then 0
    else
      var u := s[..|s| - 1];
      var n := 1 + TrailingWhitespace(u);
      assert forall k :: |s| - n <= k < |s| - 1 ==> s[k] == u[k];
      n
  }

  /** `s.strip()`: the slice of `s` left once the whitespace at both ends is
      removed. */
  function Strip(s: string): (r: string)
    ensures exists a, b :: 0 <= a <= b <= |s| && r == s[a..b] && WhitespaceBetween(s, 0, a) && WhitespaceBetween(s, b, |s|)
    ensures |r| > 0 ==> !IsWhitespace(r[0]) && !IsWhitespace(r[|r| - 1])
  {
    var a := LeadingWhitespace(s);
    var n := TrailingWhitespace(s[a..]);
    SliceEnds(s, s[a..], a, n);
    s[a..|s| - n]
  }

  /** Facts about the tail `t` of `s` starting at `a`, restated on `s`. */
  lemma SliceEnds(s: string, t: string, a: nat, n: nat)
    requires a <= |s| && t == s[a..] && n <= |t|
    requires WhitespaceBetween(t, |t| - n, |t|)
    requires n == |t| || !IsWhitespace(t[|t| - n - 1])
    ensures WhitespaceBetween(s, |s| - n, |s|)
    ensures a < |s| - n ==> !IsWhitespace(s[|s| - n - 1])
  {
    forall k | |s| - n <= k < |s| && 0 <= k < |s|
      ensures IsWhitespace(s[k])
    {
      assert s[k] == t[k - a];
    }
    if a < |s| - n {
      assert s[|s| - n - 1] == t[|t| - n - 1];
    }
  }

  /** Stripping is idempotent. */
  lemma StripIdempotent(s: string)
    ensures Strip(Strip(s)) == Strip(s)
  {
    var r := Strip(s);
    assert LeadingWhitespace(r) == 0;
    assert TrailingWhitespace(r[0..]) == 0 by {
      assert r[0..] == r;
    }
    assert r[0..|r|] == r;
  }

  /** A string with no whitespace at either end strips to itself. */
  lemma StripClean(s: string)
    requires |s| > 0 ==> !IsWhitespace(s[0]) && !IsWhitespace(s[|s| - 1])
    ensures Strip(s) == s
  {
    assert LeadingWhitespace(s) == 0;
    assert s[0..] == s;
  }

  /** The type slots under which a string is only stripped: `None`, `str`
      itself (not a tuple holding it), and a nested mapping. */
  predicate StripsOnly(spec: TypeSpec) {
    spec.Untyped? || spec == Single(StrKind) || spec.Nested?
  }

  /** `convertstring(v, typedef)`. */
  function ConvertString(v: Value, spec: TypeSpec): (r: Result<Value>)
    ensures !v.Str? ==> r == Ok(v)
    ensures v.Str? && StripsOnly(spec) ==> r == Ok(Str(Strip(v.s)))
    ensures v.Str? && !StripsOnly(spec) ==> (r.Ok? <==> Literals.LiteralEval(v.s).Some?)
    ensures v.Str? && !StripsOnly(spec) && r.Ok? ==> Some(r.value) == Literals.LiteralEval(v.s)
    ensures r.Err? ==> r.error == MalformedLiteral(v.s)
  {
    if !v.Str? then Ok(v)
    else if StripsOnly(spec) then Ok(Str(Strip(v.s)))
    else
      match Literals.LiteralEval(v.s)
      case Some(x) => Ok(x)
      case None => Err(MalformedLiteral(v.s))
  }

  /** Converting again changes nothing: typed values pass through and a
      stripped string strips to itself. */
  lemma ConvertIdempotent(v: Value, spec: TypeSpec)
    requires !v.Str? || StripsOnly(spec)
    ensures ConvertString(v, spec).Ok?
    ensures ConvertString(ConvertString(v, spec).value, spec) == ConvertString(v, spec)
  {
    if v.Str? {
      StripIdempotent(v.s);
    }
  }

  /** A literal written out as Python would print it converts back to itself
      under any type slot that evaluates literals. */
  lemma ConvertRepr(x: Value, spec: TypeSpec)
    requires Literals.IsLiteral(x)
    requires !StripsOnly(spec)
    ensures ConvertString(Str(Literals.Repr(x)), spec) == Ok(x)
  {
    Literals.LiteralEvalOfRepr(x);
  }
}

=== FILE: config.dfy ===
/** The INI merger: the variant of the mapping merger for a parsed INI file,
    whose sections are mappings of strings. */
module Config {
  import opened Values
  import opened Outcomes
  import opened Schemas
  import Templates
  import opened Coercion
  import Merge

  /** `mergeconfig(raw, schema, validate, checkUnused)`. The unused-key flag is
      accepted and never consulted. */
  function MergeConfig(raw: Value, schema: Schema, validate: bool, checkUnused: bool): (r: Result<Record>)
    ensures !raw.Dict? ==> r == Err(NotAMapping)
    ensures r.Ok? ==> r.value.Keys == Keys(schema)
    ensures r.Ok? ==> forall i :: 0 <= i < |schema| && schema[i].required ==> schema[i].key in raw.entries
    ensures r.Ok? && validate ==> forall i :: 0 <= i < |schema| ==>
      !schema[i].validator.Elements? && Merge.CrossHolds(schema[i], r.value)
    ensures r.Err? ==> !r.error.UnusedKeys?
    decreases schema, 3
  {
    if !raw.Dict? then Err(NotAMapping)
    else
      var out :- ConfigFields(raw.entries, schema, validate, map[]);
      var failure := if validate then Merge.CrossFailure(schema, out) else None;
      if failure.Some? then Err(failure.value) else Ok(out)
  }

  /** The per-field loop of the INI merger. */
  function ConfigFields(input: Record, fields: Schema, validate: bool, acc: Record): (r: Result<Record>)
    ensures r.Ok? ==> r.value.Keys == acc.Keys + Keys(fields)
    ensures r.Ok? ==> forall k :: k in acc && k !in Keys(fields) ==> r.value[k] == acc[k]
    ensures r.Ok? ==> forall i :: 0 <= i < |fields| && fields[i].required ==> fields[i].key in input
    ensures r.Ok? && validate ==> forall i :: 0 <= i < |fields| ==> !fields[i].validator.Elements?
    ensures r.Err? ==> !r.error.UnusedKeys?
    decreases fields, 2
  {
    if |fields| == 0 then Ok(acc)
    else
      KeysOfTail(fields);
      var v :- ConfigField(input, fields[0], validate);
      var rest := ConfigFields(input, fields[1..], validate, acc[fields[0].key := v]);
      assert rest.Ok? && validate ==> forall i :: 1 <= i < |fields| ==> fields[i] == fields[1..][i - 1];
      rest
  }

  /** One descriptor of the INI merger. */
  function ConfigField(input: Record, f: Field, validate: bool): (r: Result<Value>)
    ensures f.required && f.key !in input ==> r == Err(MissingRequired(f.key))
    ensures r.Ok? && validate ==>
      !f.validator.Elements? && (TypeChecked(f.spec) ==> Conforms(r.value, f.spec)) && Merge.LocalHolds(f, r.value)
    ensures r.Err? ==> !r.error.UnusedKeys?
    decreases f, 1
  {
    if f.required && f.key !in input then Err(MissingRequired(f.key))
    else
      var v :- ConfigValue(input, f);
      if validate then ConfigCheck(f, v) else Ok(v)
  }

  /** The entry before the per-entry checks. Nested sections are merged with
      both flags at their defaults, and a nested field whose default is the
      empty mapping yields an empty mapping whatever the section holds. Every
      other value, the default included, goes through the string coercion. */
  function ConfigValue(input: Record, f: Field): (r: Result<Value>)
    ensures f.spec == Nested(PassThrough) && r.Ok? ==> r.value == Dict(map[])
    ensures f.spec.Nested? && f.spec.default.SubSchema? && r.Ok? ==>
      r.value.Dict? && r.value.entries.Keys == Keys(f.spec.default.fields)
    ensures f.spec.Nested? && f.spec.default.SubSchema? && f.key in input ==>
      r == Merge.AsDictEntry(MergeConfig(input[f.key], f.spec.default.fields, true, true))
    ensures f.spec.Nested? && f.spec.default.SubSchema? && f.key !in input ==>
      r == Merge.AsDictEntry(Templates.Template(f.spec.default.fields, true))
    ensures !f.spec.Nested? ==> r == ConvertString(Merge.Chosen(input, f), f.spec)
    ensures r.Err? ==> !r.error.UnusedKeys?
    decreases f, 0
  {
    match f.spec
    case Nested(PassThrough) =>
      if f.key in input && !input[f.key].Dict? then Err(NotAMapping) else Ok(Dict(map[]))
    case Nested(SubSchema(sub)) =>
      if f.key in input then
        var m :- MergeConfig(input[f.key], sub, true, true);
        Ok(Dict(m))
      else
        Templates.AllIncluded(sub);
        var t :- Templates.Template(sub, true);
        Ok(Dict(t))
    case _ =>
      ConvertString(Merge.Chosen(input, f), f.spec)
  }

  /** The per-entry checks of the INI merger: the type check, then the
      one-argument validator. An element schema in the validator slot is not
      callable and stops the merge. */
  function ConfigCheck(f: Field, v: Value): (r: Result<Value>)
    ensures TypeChecked(f.spec) && !Conforms(v, f.spec) ==> r == Err(TypeMismatch(f.key))
    ensures r.Ok? ==> r.value == v && !f.validator.Elements? && Merge.LocalHolds(f, v)
    ensures r.Ok? ==> (TypeChecked(f.spec) ==> Conforms(v, f.spec))
    ensures (TypeChecked(f.spec) ==> Conforms(v, f.spec)) && f.validator.Elements? ==> r == Err(NotCallable(f.key))
    ensures (TypeChecked(f.spec) ==> Conforms(v, f.spec)) && !f.validator.Elements? ==>
      r == if Merge.LocalHolds(f, v) then Ok(v) else Err(LocalValidationFailed(f.key, Merge.LocalMessage(f, v)))
    ensures r.Err? ==> !r.error.UnusedKeys?
  {
    if TypeChecked(f.spec) && !Conforms(v, f.spec) then Err(TypeMismatch(f.key))
    else
      match f.validator
      case Elements(_) => Err(NotCallable(f.key))
      case Local(check) =>
        var (ok, message) := SplitVerdict(check(v));
        if ok then Ok(v) else Err(LocalValidationFailed(f.key, message))
      case _ => Ok(v)
  }
}

=== FILE: config_facts.dfy ===
/** What the INI merger guarantees about its record, and how it relates to
    the mapping merger. */
module ConfigFacts {
  import opened Values
  import opened Outcomes
  import opened Schemas
  import opened Coercion
  import opened Config
  import Merge
  import Templates

  /** The per-field loop writes each descriptor's own entry. */
  lemma {:induction false} FieldsEntry(input: Record, fields: Schema, validate: bool, acc: Record, i: nat)
    requires UniqueKeys(fields)
    requires i < |fields|
    requires ConfigFields(input, fields, validate, acc).Ok?
    ensures ConfigField(input, fields[i], validate).Ok?
    ensures ConfigFields(input, fields, validate, acc).value[fields[i].key] == ConfigField(input, fields[i], validate).value
    decreases |fields|
  {
    var f := fields[0];
    var tail := fields[1..];
    UniqueTail(fields);
    var v := ConfigField(input, f, validate).value;
    if i > 0 {
      FieldsEntry(input, tail, validate, acc[f.key := v], i - 1);
    }
  }

  /** A field that is not nested holds the coercion of its raw string, or of
      its default when the key is absent: defaults are coerced too. */
  lemma ConfigEntry(raw: Value, schema: Schema, validate: bool, checkUnused: bool, i: nat)
    requires UniqueKeys(schema)
    requires i < |schema| && !schema[i].spec.Nested?
    requires MergeConfig(raw, schema, validate, checkUnused).Ok?
    ensures var source := if schema[i].key in raw.entries then raw.entries[schema[i].key] else schema[i].default;
      ConvertString(source, schema[i].spec).Ok? &&
      MergeConfig(raw, schema, validate, checkUnused).value[schema[i].key] == ConvertString(source, schema[i].spec).value
  {
    FieldsEntry(raw.entries, schema, validate, map[], i);
  }

  /** A present nested section holds its merge against the sub-schema, run
      with both flags at their defaults: it validates (its two-argument
      validators accept the sub-record) even when the outer merge does not. */
  lemma NestedConfigEntry(raw: Value, schema: Schema, validate: bool, checkUnused: bool, i: nat, sub: Schema)
    requires UniqueKeys(schema)
    requires i < |schema| && schema[i].spec == Nested(SubSchema(sub))
    requires raw.Dict? && schema[i].key in raw.entries
    requires MergeConfig(raw, schema, validate, checkUnused).Ok?
    ensures MergeConfig(raw.entries[schema[i].key], sub, true, true).Ok?
    ensures MergeConfig(raw, schema, validate, checkUnused).value[schema[i].key] ==
      Dict(MergeConfig(raw.entries[schema[i].key], sub, true, true).value)
    ensures forall j :: 0 <= j < |sub| ==>
      Merge.CrossHolds(sub[j], MergeConfig(raw.entries[schema[i].key], sub, true, true).value)
  {
    FieldsEntry(raw.entries, schema, validate, map[], i);
  }

  /** An absent nested section holds the full template of its sub-schema. */
  lemma AbsentNestedConfigEntry(raw: Value, schema: Schema, validate: bool, checkUnused: bool, i: nat, sub: Schema)
    requires UniqueKeys(schema)
    requires i < |schema| && schema[i].spec == Nested(SubSchema(sub))
    requires raw.Dict? && schema[i].key !in raw.entries
    requires MergeConfig(raw, schema, validate, checkUnused).Ok?
    ensures Templates.Template(sub, true).Ok?
    ensures MergeConfig(raw, schema, validate, checkUnused).value[schema[i].key] == Dict(Templates.Template(sub, true).value)
  {
    FieldsEntry(raw.entries, schema, validate, map[], i);
  }

  /** A nested field whose default is the empty mapping comes out empty: the
      section's own entries are dropped. */
  lemma PassThroughDropped(raw: Value, schema: Schema, validate: bool, checkUnused: bool, i: nat)
    requires UniqueKeys(schema)
    requires i < |schema| && schema[i].spec == Nested(PassThrough)
    requires MergeConfig(raw, schema, validate, checkUnused).Ok?
    ensures MergeConfig(raw, schema, validate, checkUnused).value[schema[i].key] == Dict(map[])
  {
    FieldsEntry(raw.entries, schema, validate, map[], i);
  }

  /** A document, and a schema, in which nothing would be coerced or merged:
      no nested field, no element schema, and no string among the present
      values or the defaults. */
  predicate NothingToCoerce(input: Record, schema: Schema) {
    forall i :: 0 <= i < |schema| ==>
      !schema[i].spec.Nested? && !schema[i].validator.Elements? && !schema[i].default.Str? &&
      (schema[i].key in input ==> !input[schema[i].key].Str?)
  }

  /** On such a document the INI merger and the mapping merger (with the
      unused-key check off) agree, record and error alike. */
  lemma ConfigMatchesMerge(raw: Value, schema: Schema, validate: bool, checkUnused: bool)
    requires raw.Dict? && NothingToCoerce(raw.entries, schema)
    ensures MergeConfig(raw, schema, validate, checkUnused) == Merge.MergeDict(raw, schema, validate, false)
  {
    FieldsMatch(raw.entries, schema, validate, map[]);
  }

  lemma {:induction false} FieldsMatch(input: Record, fields: Schema, validate: bool, acc: Record)
    requires NothingToCoerce(input, fields)
    ensures ConfigFields(input, fields, validate, acc) == Merge.ResolveFields(input, fields, validate, false, acc)
    decreases |fields|
  {
    if |fields| > 0 {
      var f := fields[0];
      assert ConfigField(input, f, validate) == Merge.ResolveField(input, f, validate, false);
      assert NothingToCoerce(input, fields[1..]) by {
        forall i | 0 <= i < |fields| - 1
          ensures fields[1..][i] == fields[i + 1]
        {
        }
      }
      match ConfigField(input, f, validate)
      case Ok(v) => FieldsMatch(input, fields[1..], validate, acc[f.key := v]);
      case Err(_) =>
    }
  }

  /** `out` holds, under each key of a schema with no nested descriptor, the
      coercion of the descriptor's chosen entry, and every coercion succeeds. */
  ghost predicate FlatConfigRecord(input: Record, fields: Schema, out: Record) {
    forall i :: 0 <= i < |fields| ==>
      ConvertString(Merge.Chosen(input, fields[i]), fields[i].spec).Ok? && fields[i].key in out &&
      out[fields[i].key] == ConvertString(Merge.Chosen(input, fields[i]), fields[i].spec).value
  }

  /** The per-field loop of the INI merger over descriptors that are not
      nested succeeds when every required key is present, every entry
      coerces and, when validating, no descriptor carries an element schema
      and every coerced entry passes its checks. */
  lemma {:induction false} FlatConfigFields(input: Record, fields: Schema, validate: bool, acc: Record, out: Record)
    requires forall i :: 0 <= i < |fields| ==> !fields[i].spec.Nested?
    requires forall i :: 0 <= i < |fields| && fields[i].required ==> fields[i].key in input
    requires FlatConfigRecord(input, fields, out)
    requires validate ==> forall i :: 0 <= i < |fields| ==>
      !fields[i].validator.Elements? && Merge.Accepted(fields[i], out[fields[i].key])
    requires out.Keys == acc.Keys + Keys(fields)
    requires forall k :: k in acc && k !in Keys(fields) ==> out[k] == acc[k]
    ensures ConfigFields(input, fields, validate, acc) == Ok(out)
    decreases |fields|
  {
    if |fields| == 0 {
      assert acc == out;
    } else {
      var f := fields[0];
      var tail := fields[1..];
      KeysOfTail(fields);
      var v := out[f.key];
      assert ConfigField(input, f, validate) == Ok(v) by {
        assert ConfigValue(input, f) == Ok(v);
      }
      assert forall i :: 0 <= i < |tail| ==> tail[i] == fields[i + 1];
      FlatConfigFields(input, tail, validate, acc[f.key := v], out);
    }
  }

  /** The success condition of the INI merger on a section with no nested
      descriptor: the section is a mapping, every required key is present,
      every entry coerces and, when validating, no descriptor carries an
      element schema, every coerced entry passes its checks and every
      two-argument validator accepts the record of coerced entries. The merge
      then returns that record; keys the schema does not declare never make
      it fail. */
  lemma FlatConfigSucceeds(raw: Value, schema: Schema, validate: bool, checkUnused: bool, out: Record)
    requires raw.Dict?
    requires forall i :: 0 <= i < |schema| ==> !schema[i].spec.Nested?
    requires forall i :: 0 <= i < |schema| && schema[i].required ==> schema[i].key in raw.entries
    requires out.Keys == Keys(schema) && FlatConfigRecord(raw.entries, schema, out)
    requires validate ==> forall i :: 0 <= i < |schema| ==>
      !schema[i].validator.Elements? && Merge.Accepted(schema[i], out[schema[i].key])
    requires validate ==> forall i :: 0 <= i < |schema| ==> Merge.CrossHolds(schema[i], out)
    ensures MergeConfig(raw, schema, validate, checkUnused) == Ok(out)
  {
    FlatConfigFields(raw.entries, schema, validate, map[], out);
  }
}

=== FILE: ini_scenarios.dfy ===
/** The INI ingestion test: sections of strings coerced to the types their
    descriptors name. */
module IniScenarios {
  import opened Values
  import opened Outcomes
  import opened Schemas
  import opened Coercion
  import opened Config
  import Literals
  import Merge
  import opened Scenarios

  lemma ZeroCoerced()
    ensures ConvertString(Str("0"), Single(IntKind)) == Ok(Int(0))
  {
    assert Literals.Repr(Int(0)) == "0";
    ConvertRepr(Int(0), Single(IntKind));
  }

  lemma TrueCoerced()
    ensures ConvertString(Str("True"), Single(BoolKind)) == Ok(Bool(true))
  {
    assert Literals.Repr(Bool(true)) == "True";
    ConvertRepr(Bool(true), Single(BoolKind));
  }

  lemma ListCoerced()
    ensures ConvertString(Str("[1, 2, 3]"), ListMarker) == Ok(List([Int(1), Int(2), Int(3)]))
  {
    var items := [Int(1), Int(2), Int(3)];
    assert Literals.ItemsRepr(items[2..]) == "3";
    assert Literals.ItemsRepr(items[1..]) == "2, 3";
    assert Literals.ItemsRepr(items) == "1, 2, 3";
    assert Literals.Repr(List(items)) == "[1, 2, 3]";
    assert Literals.IsLiteral(List(items));
    ConvertRepr(List(items), ListMarker);
  }

  lemma DecimalDigits()
    ensures Literals.DigitRun("200.123") == 3 && Literals.DigitRun("123") == 3
    ensures Literals.DigitsValue("200") == 200 && Literals.DigitsValue("123") == 123
    ensures Literals.Pow10(3) == 1000
  {
    assert "200"[..2] == "20" && "20"[..1] == "2" && "2"[..0] == "";
    assert "123"[..2] == "12" && "12"[..1] == "1" && "1"[..0] == "";
  }

  lemma DecimalParsed()
    ensures Literals.ParseNumber("200.123") == Some(Literals.Parsed(Float(200.123), ""))
  {
    var text := "200.123";
    DecimalDigits();
    assert text[..3] == "200" && text[3..] == ".123" && ".123"[1..] == "123";
    assert "123"[..3] == "123" && "123"[3..] == "";
    assert 200 as real + 123 as real / 1000 as real == 200.123;
  }

  lemma DecimalRead()
    ensures Literals.ParseValue("200.123") == Literals.ParseNumber("200.123")
  {
    var text := "200.123";
    Literals.SkipNoSpace(text);
    assert Literals.IsDigit(text[0]);
  }

  lemma DecimalEvaluated()
    ensures Literals.LiteralEval("200.123") == Some(Float(200.123))
  {
    DecimalRead();
    DecimalParsed();
    assert Literals.SkipSpace("") == "";
  }

  lemma FloatCoerced()
    ensures ConvertString(Str("200.123"), Tuple({IntKind, FloatKind})) == Ok(Float(200.123))
  {
    DecimalEvaluated();
  }

  /** A string under an untyped descriptor is only stripped. */
  lemma NameCoerced()
    ensures ConvertString(Str("myname"), Untyped) == Ok(Str("myname"))
  {
    StripClean("myname");
  }

  /** The two sections of the test's INI text, as the parser hands them over:
      every value a string. */
  const DefaultSection: Record := map[
    "name" := Str("myname"),
    "intval" := Str("0"),
    "floatval" := Str("200.123"),
    "boolval" := Str("True")
  ]

  const SubSection: Record := map["name" := Str("mysubdict"), "mylist" := Str("[1, 2, 3]")]

  /** The parsed file: the always-present `DEFAULT` section (empty here) and
      the two named sections. */
  const IniDocument: Value := Dict(map[
    "DEFAULT" := Dict(map[]),
    "default" := Dict(DefaultSection),
    "subdict" := Dict(SubSection)
  ])

  /** The INI schema: one nested field per section. */
  const DefaultSectionField: Field := Field("default", true, Nested(SubSchema(FlatSchema)), Null, NoValidator)
  const IniFields: Schema := [DefaultSectionField, SubdictField]

  const DefaultRecord: Record := map[
    "name" := Str("myname"),
    "intval" := Int(0),
    "floatval" := Float(200.123),
    "boolval" := Bool(true)
  ]

  const SubRecord: Record := map["name" := Str("mysubdict"), "mylist" := List([Int(1), Int(2), Int(3)])]

  lemma ConfigStep(input: Record, fields: Schema, validate: bool, acc: Record, v: Value)
    requires |fields| > 0 && ConfigField(input, fields[0], validate) == Ok(v)
    ensures ConfigFields(input, fields, validate, acc) == ConfigFields(input, fields[1..], validate, acc[fields[0].key := v])
  {
  }

  /** A present string field that is not nested resolves to its coerced
      value once that value passes the per-entry checks. */
  lemma PresentField(input: Record, f: Field, text: string, x: Value)
    requires !f.spec.Nested? && f.key in input && input[f.key] == Str(text)
    requires ConvertString(Str(text), f.spec) == Ok(x)
    requires ConfigCheck(f, x) == Ok(x)
    ensures ConfigField(input, f, true) == Ok(x)
  {
  }

  /** A value that passes the type check meets no further check when its
      validator is absent or looks at the whole record. */
  lemma CheckPasses(f: Field, v: Value)
    requires TypeChecked(f.spec) ==> Conforms(v, f.spec)
    requires f.validator.NoValidator? || f.validator.Cross?
    ensures ConfigCheck(f, v) == Ok(v)
  {
  }

  /** `intval` of 0 passes its type check and the non-negativity check. */
  lemma IntvalChecked()
    ensures ConfigCheck(IntvalField, Int(0)) == Ok(Int(0))
  {
    assert SplitVerdict(NonNegative(Int(0))).0;
  }

  lemma DefaultName(input: Record)
    requires "name" in input && input["name"] == Str("myname")
    ensures ConfigField(input, NameField, true) == Ok(Str("myname"))
  {
    NameCoerced();
    CheckPasses(NameField, Str("myname"));
    PresentField(input, NameField, "myname", Str("myname"));
  }

  lemma DefaultIntval(input: Record)
    requires "intval" in input && input["intval"] == Str("0")
    ensures ConfigField(input, IntvalField, true) == Ok(Int(0))
  {
    ZeroCoerced();
    IntvalChecked();
    PresentField(input, IntvalField, "0", Int(0));
  }

  lemma DefaultFloatval(input: Record)
    requires "floatval" in input && input["floatval"] == Str("200.123")
    ensures ConfigField(input, FloatvalField, true) == Ok(Float(200.123))
  {
    FloatCoerced();
    assert IsInstance(Float(200.123), FloatKind);
    CheckPasses(FloatvalField, Float(200.123));
    PresentField(input, FloatvalField, "200.123", Float(200.123));
  }

  lemma DefaultBoolval(input: Record)
    requires "boolval" in input && input["boolval"] == Str("True")
    ensures ConfigField(input, BoolvalField, true) == Ok(Bool(true))
  {
    TrueCoerced();
    CheckPasses(BoolvalField, Bool(true));
    PresentField(input, BoolvalField, "True", Bool(true));
  }

  /** The flat fields resolve one by one into the record of their values. */
  lemma FlatResolved(input: Record, name: Value, intval: Value, floatval: Value, boolval: Value)
    requires ConfigField(input, NameField, true) == Ok(name)
    requires ConfigField(input, IntvalField, true) == Ok(intval)
    requires ConfigField(input, FloatvalField, true) == Ok(floatval)
    requires ConfigField(input, BoolvalField, true) == Ok(boolval)
    ensures ConfigFields(input, FlatSchema, true, map[]) ==
      Ok(map["name" := name, "intval" := intval, "floatval" := floatval, "boolval" := boolval])
  {
    var fs := FlatSchema;
    assert fs[0] == NameField && fs[1..][0] == IntvalField && fs[2..][0] == FloatvalField && fs[3..][0] == BoolvalField;
    assert fs[1..][1..] == fs[2..] && fs[2..][1..] == fs[3..] && fs[3..][1..] == [];
    var a1 := map["name" := name];
    var a2 := a1["intval" := intval];
    var a3 := a2["floatval" := floatval];
    ConfigStep(input, fs, true, map[], name);
    ConfigStep(input, fs[1..], true, a1, intval);
    ConfigStep(input, fs[2..], true, a2, floatval);
    ConfigStep(input, fs[3..], true, a3, boolval);
  }

  lemma DefaultFields()
    ensures ConfigFields(DefaultSection, FlatSchema, true, map[]) == Ok(DefaultRecord)
  {
    var d := DefaultSection;
    assert d["name"] == Str("myname") && d["intval"] == Str("0");
    assert d["floatval"] == Str("200.123") && d["boolval"] == Str("True");
    DefaultName(d);
    DefaultIntval(d);
    DefaultFloatval(d);
    DefaultBoolval(d);
    FlatResolved(d, Str("myname"), Int(0), Float(200.123), Bool(true));
  }

  /** The sum validator accepts the section: 200.123 + 0 >= 200. */
  lemma DefaultCross()
    ensures Keys(FlatSchema) <= DefaultRecord.Keys
    ensures Merge.CrossFailure(FlatSchema, DefaultRecord) == None
  {
    var fs := FlatSchema;
    assert fs[0].key == "name" && fs[1].key == "intval" && fs[2].key == "floatval" && fs[3].key == "boolval";
    forall i | 0 <= i < |fs|
      ensures Merge.CrossHolds(fs[i], DefaultRecord)
    {
      assert fs[i] in [NameField, IntvalField, FloatvalField, BoolvalField];
    }
  }

  lemma DefaultMerged()
    ensures MergeConfig(Dict(DefaultSection), FlatSchema, true, true) == Ok(DefaultRecord)
  {
    DefaultFields();
    DefaultCross();
  }

  lemma SubNameCoerced()
    ensures ConfigField(SubSection, SubFields[0], true) == Ok(Str("mysubdict"))
  {
    StripClean("mysubdict");
    CheckPasses(SubFields[0], Str("mysubdict"));
    PresentField(SubSection, SubFields[0], "mysubdict", Str("mysubdict"));
  }

  lemma SubListCoerced()
    ensures ConfigField(SubSection, SubFields[1], true) == Ok(List([Int(1), Int(2), Int(3)]))
  {
    ListCoerced();
    CheckPasses(SubFields[1], List([Int(1), Int(2), Int(3)]));
    PresentField(SubSection, SubFields[1], "[1, 2, 3]", List([Int(1), Int(2), Int(3)]));
  }

  lemma SubMergedFromIni()
    ensures MergeConfig(Dict(SubSection), SubFields, true, true) == Ok(SubRecord)
  {
    SubNameCoerced();
    SubListCoerced();
    var fs := SubFields;
    var a1 := map["name" := Str("mysubdict")];
    ConfigStep(SubSection, fs, true, map[], Str("mysubdict"));
    assert fs[1..][0] == fs[1] && fs[1..][1..] == [];
    ConfigStep(SubSection, fs[1..], true, a1, List([Int(1), Int(2), Int(3)]));
    assert Keys(fs) <= SubRecord.Keys by {
      assert fs[0].key == "name" && fs[1].key == "mylist";
    }
  }

  /** The two sections resolve into the record of their merged mappings. */
  lemma SectionsResolved(input: Record, default: Value, subdict: Value)
    requires ConfigField(input, DefaultSectionField, true) == Ok(default)
    requires ConfigField(input, SubdictField, true) == Ok(subdict)
    ensures MergeConfig(Dict(input), IniFields, true, false) == Ok(map["default" := default, "subdict" := subdict])
  {
    var fs := IniFields;
    ConfigStep(input, fs, true, map[], default);
    assert fs[1..][0] == SubdictField && fs[1..][1..] == [];
    ConfigStep(input, fs[1..], true, map["default" := default], subdict);
    assert Keys(fs) <= map["default" := default, "subdict" := subdict].Keys by {
      assert fs[0].key == "default" && fs[1].key == "subdict";
    }
  }

  /** A present nested field without a validator resolves to its merged
      section. */
  lemma PresentSection(input: Record, f: Field, sub: Schema, record: Record)
    requires f.spec == Nested(SubSchema(sub)) && f.validator.NoValidator? && f.key in input
    requires MergeConfig(input[f.key], sub, true, true) == Ok(record)
    ensures ConfigField(input, f, true) == Ok(Dict(record))
  {
  }

  lemma SectionFields()
    ensures ConfigField(IniDocument.entries, DefaultSectionField, true) == Ok(Dict(DefaultRecord))
    ensures ConfigField(IniDocument.entries, SubdictField, true) == Ok(Dict(SubRecord))
  {
    DefaultMerged();
    PresentSection(IniDocument.entries, DefaultSectionField, FlatSchema, DefaultRecord);
    SubMergedFromIni();
    PresentSection(IniDocument.entries, SubdictField, SubFields, SubRecord);
  }

  /** The INI ingestion test: both sections merged, every string coerced to
      its descriptor's type, the list text read as a list. */
  lemma IniIngestion()
    ensures MergeConfig(IniDocument, IniFields, true, false) ==
      Ok(map["default" := Dict(DefaultRecord), "subdict" := Dict(SubRecord)])
  {
    SectionFields();
    SectionsResolved(IniDocument.entries, Dict(DefaultRecord), Dict(SubRecord));
  }
}

=== FILE: literals.dfy ===
/** Python's `repr` for configuration values and the constant-literal reader
    (`ast.literal_eval`) that turns such text back into a value. The reader
    accepts a small safe grammar: None, True, False, signed decimal integers,
    decimal floats, quoted strings without escapes, and bracketed lists of
    these. Anything else is malformed. */
module Literals {
  import opened Values
  import opened Outcomes

  // ---------------------------------------------------------------------
  // Rendering
  // ---------------------------------------------------------------------

  function DigitChar(d: nat): (c: char)
    requires d < 10
    ensures IsDigit(c) && DigitValue(c) == d
  {
    ('0' as int + d) as char
  }

  /** Decimal digits of a natural number, most significant first, with no
      leading zero. */
  function NatRepr(n: nat): (r: string)
    ensures |r| > 0
    ensures forall i :: 0 <= i < |r| ==> IsDigit(r[i])
    ensures |r| > 1 ==> r[0] != '0'
    decreases n
  {
    if n < 10 then [DigitChar(n)] else NatRepr(n / 10) + [DigitChar(n % 10)]
  }

  function IntRepr(i: int): string {
    if i < 0 then "-" + NatRepr(-i) else NatRepr(i)
  }

  /** Up to `fuel` decimal digits of a fraction in [0, 1), without trailing zeros. */
  function FracDigits(f: real, fuel: nat): string
    requires 0.0 <= f < 1.0
    decreases fuel
  {
    if f == 0.0 || fuel == 0 then ""
    else
      var d := (f * 10.0).Floor;
      [DigitChar(d)] + FracDigits(f * 10.0 - d as real, fuel - 1)
  }

  /** A float in positional notation with at least one fractional digit. */
  function FloatRepr(r: real): string {
    var a := if r < 0.0 then -r else r;
    var whole := a.Floor;
    var digits := FracDigits(a - whole as real, 17);
    (if r < 0.0 then "-" else "") + NatRepr(whole) + "." + (if digits == "" then "0" else digits)
  }

  function EscapeChar(c: char, quote: char): string {
    if c == '\\' then "\\\\"
    else if c == quote then ['\\', quote]
    else if c == '\n' then "\\n"
    else if c == '\r' then "\\r"
    else if c == '\t' then "\\t"
    else [c]
  }

  function Escape(s: string, quote: char): string {
    if |s| == 0 then "" else EscapeChar(s[0], quote) + Escape(s[1..], quote)
  }

  /** Single quotes unless the text holds a single quote and no double quote. */
  function QuoteOf(s: string): char {
    if '\'' in s && '"' !in s then '"' else '\''
  }

  /** `repr` of a string: quoted, with backslashes, the quote and control
      characters escaped. */
  function StrRepr(s: string): string {
    var quote := QuoteOf(s);
    [quote] + Escape(s, quote) + [quote]
  }

  /** `repr(v)`. A non-empty dict renders as `{...}`: a map keeps no insertion order. */
  function Repr(v: Value): (r: string)
    ensures |r| > 0
    ensures v.Str? ==> |r| >= 2 && r[0] == r[|r| - 1] && (r[0] == '\'' || r[0] == '"')
    ensures v.List? ==> |r| >= 2 && r[0] == '[' && r[|r| - 1] == ']'
    ensures v.Int? ==> (r[0] == '-' <==> v.i < 0)
    decreases v, 1
  {
    match v
    case Null => "None"
    case Bool(b) => if b then "True" else "False"
    case Int(i) => IntRepr(i)
    case Float(r) => FloatRepr(r)
    case Str(s) => StrRepr(s)
    case List(items) => "[" + ItemsRepr(items) + "]"
    case Dict(m) => if |m| == 0 then "{}" else "{...}"
  }

  /** The elements of a list, separated by ", ". */
  function ItemsRepr(items: seq<Value>): string
    decreases items, 0
  {
    if |items| == 0 then ""
    else if |items| == 1 then Repr(items[0])
    else Repr(items[0]) + ", " + ItemsRepr(items[1..])
  }

  // ---------------------------------------------------------------------
  // Reading
  // ---------------------------------------------------------------------

  predicate IsSpace(c: char) {
    c == ' ' || c == '\t' || c == '\n' || c == '\r'
  }

  predicate IsDigit(c: char) {
    '0' as int <= c as int <= '9' as int
  }

  predicate IsIdentChar(c: char) {
    IsDigit(c) || 'a' <= c <= 'z' || 'A' <= c <= 'Z' || c == '_'
  }

  /** Drops leading white space. */
  function SkipSpace(s: string): (r: string)
    ensures |r| <= |s| && r == s[|s| - |r|..]
    ensures |r| > 0 ==> !IsSpace(r[0])
  {
    if |s| > 0 && IsSpace(s[0]) then SkipSpace(s[1..]) else s
  }

  /** Length of the run of digits that starts `s`. */
  function DigitRun(s: string): (n: nat)
    ensures n <= |s|
    ensures forall i :: 0 <= i < n ==> IsDigit(s[i])
    ensures n < |s| ==> !IsDigit(s[n])
  {
    if |s| > 0 && IsDigit(s[0]) then 1 + DigitRun(s[1..]) else 0
  }

  function DigitValue(c: char): nat
    requires IsDigit(c)
  {
    c as int - '0' as int
  }

  /** The number a string of decimal digits denotes. */
  function DigitsValue(ds: string): nat
    requires forall i :: 0 <= i < |ds| ==> IsDigit(ds[i])
  {
    if |ds| == 0 then 0
    else 10 * DigitsValue(ds[..|ds| - 1]) + DigitValue(ds[|ds| - 1])
  }

  function Pow10(n: nat): (p: nat)
    ensures p > 0
  {
    if n == 0 then 1 else 10 * Pow10(n - 1)
  }

  /** What the reader can produce: no mapping at any depth, and strings free
      of backslashes, line breaks and NUL characters. */
  predicate Readable(v: Value)
    decreases v
  {
    match v
    case Dict(_) => false
    case Str(s) => forall i :: 0 <= i < |s| ==> QuotedChar(s[i])
    case List(items) => forall i :: 0 <= i < |items| ==> Readable(items[i])
    case _ => true
  }

  /** A value read from the front of a text, and the text after it. */
  datatype Parsed = Parsed(value: Value, rest: string)

  /** A keyword constant, which must not run on into an identifier. */
  function ParseKeyword(s: string, word: string, v: Value): (r: Option<Parsed>)
    ensures r.Some? ==> r.value.value == v && |r.value.rest| == |s| - |word|
  {
    if |word| <= |s| && s[..|word|] == word && (|s| == |word| || !IsIdentChar(s[|word|]))
    then Some(Parsed(v, s[|word|..]))
    else None
  }

  /** An optionally signed integer or decimal float. A decimal integer other than
      zero may not start with 0. */
  function ParseNumber(s: string): (r: Option<Parsed>)
    requires |s| > 0
    ensures r.Some? ==> |r.value.rest| < |s|
    ensures r.Some? ==> r.value.value.Int? || r.value.value.Float?
  {
    var negative := s[0] == '-';
    var t := if s[0] == '-' || s[0] == '+' then s[1..] else s;
    var n := DigitRun(t);
    if n == 0 then None
    else
      var whole := DigitsValue(t[..n]);
      var after := t[n..];
      if |after| > 0 && after[0] == '.' then
        var m := DigitRun(after[1..]);
        var magnitude := whole as real + DigitsValue(after[1..][..m]) as real / Pow10(m) as real;
        Some(Parsed(Float(if negative then -magnitude else magnitude), after[1..][m..]))
      else if n > 1 && t[0] == '0' && whole != 0 then None
      else Some(Parsed(Int(if negative then -(whole as int) else whole), after))
  }

  /** Characters Python's tokenizer leaves alone inside a one-line string
      without escapes: not the backslash, not a line break (a lone carriage
      return is read as one), and not NUL, which source text may not hold. */
  predicate QuotedChar(c: char) {
    c != '\\' && c != '\n' && c != '\r' && c != '\0'
  }

  /** Position of the closing quote; any character that is not a
      `QuotedChar` before it is refused. */
  function CloseQuote(s: string, quote: char): (r: Option<nat>)
    ensures r.Some? ==> r.value < |s| && s[r.value] == quote
    ensures r.Some? ==> forall i :: 0 <= i < r.value ==> QuotedChar(s[i])
  {
    if |s| == 0 then None
    else if s[0] == quote then Some(0)
    else if !QuotedChar(s[0]) then None
    else match CloseQuote(s[1..], quote)
      case None => None
      case Some(k) => Some(k + 1)
  }

  /** A quoted string; `s` is the text after the opening quote. */
  function ParseString(s: string, quote: char): (r: Option<Parsed>)
    ensures r.Some? ==> |r.value.rest| < |s|
    ensures r.Some? ==> Readable(r.value.value)
  {
    match CloseQuote(s, quote)
    case None => None
    case Some(k) => Some(Parsed(Str(s[..k]), s[k + 1..]))
  }

  /** One literal after optional white space. */
  function ParseValue(s: string): (r: Option<Parsed>)
    ensures r.Some? ==> |r.value.rest| < |s|
    ensures r.Some? ==> Readable(r.value.value)
    decreases |s|, 1
  {
    ParseAtom(SkipSpace(s))
  }

  /** One literal, chosen by its first character. */
  function ParseAtom(t: string): (r: Option<Parsed>)
    ensures r.Some? ==> |r.value.rest| < |t|
    ensures r.Some? ==> Readable(r.value.value)
    decreases |t|, 0
  {
    if |t| == 0 then None
    else if t[0] == '[' then ParseListBody(t[1..])
    else if t[0] == '\'' || t[0] == '"' then ParseString(t[1..], t[0])
    else if t[0] == '-' || t[0] == '+' || IsDigit(t[0]) then ParseNumber(t)
    else if t[0] == 'N' then ParseKeyword(t, "None", Null)
    else if t[0] == 'T' then ParseKeyword(t, "True", Bool(true))
    else if t[0] == 'F' then ParseKeyword(t, "False", Bool(false))
    else None
  }

  /** A list; `s` is the text after the opening bracket. */
  function ParseListBody(s: string): (r: Option<Parsed>)
    ensures r.Some? ==> |r.value.rest| < |s|
    ensures r.Some? ==> Readable(r.value.value)
    decreases |s|, 3
  {
    var t := SkipSpace(s);
    if |t| > 0 && t[0] == ']' then Some(Parsed(List([]), t[1..]))
    else ParseElements(t, [])
  }

  /** Comma-separated elements up to the closing bracket; `acc` holds the
      elements already read. */
  function ParseElements(s: string, acc: seq<Value>): (r: Option<Parsed>)
    ensures r.Some? ==> |r.value.rest| < |s|
    ensures r.Some? && (forall i :: 0 <= i < |acc| ==> Readable(acc[i])) ==> Readable(r.value.value)
    decreases |s|, 2
  {
    match ParseValue(s)
    case None => None
    case Some(p) =>
      var more := acc + [p.value];
      assert (forall i :: 0 <= i < |acc| ==> Readable(acc[i])) ==> forall i :: 0 <= i < |more| ==> Readable(more[i]) by {
        assert forall i :: 0 <= i < |acc| ==> more[i] == acc[i];
      }
      AfterElement(p.rest, more)
  }

  /** What follows an element: the closing bracket, or a comma and either more
      elements or (a trailing comma) the closing bracket. */
  function AfterElement(s: string, acc: seq<Value>): (r: Option<Parsed>)
    ensures r.Some? ==> |r.value.rest| < |s|
    ensures r.Some? && (forall i :: 0 <= i < |acc| ==> Readable(acc[i])) ==> Readable(r.value.value)
    decreases |s|, 4
  {
    var u := SkipSpace(s);
    if |u| == 0 then None
    else if u[0] == ']' then Some(Parsed(List(acc), u[1..]))
    else if u[0] != ',' then None
    else
      var w := SkipSpace(u[1..]);
      if |w| > 0 && w[0] == ']' then Some(Parsed(List(acc), w[1..]))
      else ParseElements(u[1..], acc)
  }

  /** `ast.literal_eval(text)`: one literal, surrounded by nothing but white space. */
  function LiteralEval(text: string): (r: Option<Value>)
    ensures r.Some? ==> Readable(r.value)
    ensures (forall i :: 0 <= i < |text| ==> IsSpace(text[i])) ==> r.None?
  {
    match ParseValue(text)
    case None => None
    case Some(p) => if SkipSpace(p.rest) == "" then Some(p.value) else None
  }

  // ---------------------------------------------------------------------
  // Round trip: reading back what repr wrote
  // ---------------------------------------------------------------------

  /** Printable ASCII other than the backslash: characters repr leaves alone. */
  predicate PlainChar(c: char) {
    ' ' <= c <= '~' && c != '\\'
  }

  /** Text whose repr needs no escape. */
  predicate PlainText(s: string) {
    (forall i :: 0 <= i < |s| ==> PlainChar(s[i])) && !('\'' in s && '"' in s)
  }

  /** Values whose repr the reader accepts. */
  predicate IsLiteral(v: Value)
    decreases v
  {
    match v
    case Null => true
    case Bool(_) => true
    case Int(_) => true
    case Str(s) => PlainText(s)
    case List(items) => forall i :: 0 <= i < |items| ==> IsLiteral(items[i])
    case _ => false
  }

  /** What may follow a literal inside repr output. */
  predicate Delimiter(rest: string) {
    rest == [] || rest[0] == ',' || rest[0] == ']'
  }

  lemma {:induction false} NatReprValue(n: nat)
    ensures DigitsValue(NatRepr(n)) == n
    decreases n
  {
    if n >= 10 {
      NatReprValue(n / 10);
      var p := NatRepr(n / 10);
      var ds := p + [DigitChar(n % 10)];
      assert ds == NatRepr(n);
      assert ds[..|ds| - 1] == p;
    }
  }

  lemma {:induction false} DigitRunOfDigits(ds: string, rest: string)
    requires forall i :: 0 <= i < |ds| ==> IsDigit(ds[i])
    requires rest == [] || !IsDigit(rest[0])
    ensures DigitRun(ds + rest) == |ds|
    decreases |ds|
  {
    if |ds| > 0 {
      assert (ds + rest)[1..] == ds[1..] + rest;
      DigitRunOfDigits(ds[1..], rest);
    } else {
      assert ds + rest == rest;
    }
  }

  lemma {:induction false} CloseQuoteOfPlain(s: string, quote: char, rest: string)
    requires forall i :: 0 <= i < |s| ==> PlainChar(s[i]) && s[i] != quote
    ensures CloseQuote(s + [quote] + rest, quote) == Some(|s|)
    decreases |s|
  {
    if |s| > 0 {
      assert (s + [quote] + rest)[1..] == s[1..] + [quote] + rest;
      CloseQuoteOfPlain(s[1..], quote, rest);
    }
  }

  lemma {:induction false} EscapeOfPlain(s: string, quote: char)
    requires forall i :: 0 <= i < |s| ==> PlainChar(s[i]) && s[i] != quote
    ensures Escape(s, quote) == s
    decreases |s|
  {
    if |s| > 0 {
      EscapeOfPlain(s[1..], quote);
      assert s == [s[0]] + s[1..];
    }
  }

  /** The repr of a literal starts with a character that is neither white
      space nor a list delimiter. */
  lemma ReprStart(v: Value)
    requires IsLiteral(v)
    ensures |Repr(v)| > 0 && !IsSpace(Repr(v)[0]) && Repr(v)[0] != ']' && Repr(v)[0] != ','
  {
    match v
    case _ =>
  }

  /** Unfolding ParseElements past white space changes nothing. */
  lemma ElementsSkipSpace(x: string, acc: seq<Value>)
    ensures ParseElements(" " + x, acc) == ParseElements(x, acc)
  {
    assert (" " + x)[1..] == x;
    assert SkipSpace(" " + x) == SkipSpace(x);
  }

  lemma SkipNoSpace(s: string)
    requires |s| > 0 && !IsSpace(s[0])
    ensures SkipSpace(s) == s
  {
  }

  lemma NumberOfRepr(i: int, rest: string)
    requires Delimiter(rest)
    ensures ParseNumber(IntRepr(i) + rest) == Some(Parsed(Int(i), rest))
  {
    if i < 0 {
      NegativeNumber(i, rest);
    } else {
      UnsignedNumber(i, rest);
    }
  }

  lemma UnsignedNumber(i: int, rest: string)
    requires i >= 0 && Delimiter(rest)
    ensures ParseNumber(IntRepr(i) + rest) == Some(Parsed(Int(i), rest))
  {
    DigitsSplit(i, rest);
    assert IntRepr(i) == NatRepr(i);
    assert NatRepr(i)[0] != '-' && NatRepr(i)[0] != '+';
  }

  /** The digits of `m`, then a delimiter: the digit run is exactly the
      digits, and they denote `m`. */
  lemma DigitsSplit(m: nat, rest: string)
    requires Delimiter(rest)
    ensures var t := NatRepr(m) + rest; var n := |NatRepr(m)|;
      DigitRun(t) == n && t[..n] == NatRepr(m) && t[n..] == rest &&
      DigitsValue(t[..n]) == m && !(|t[n..]| > 0 && t[n..][0] == '.')
  {
    var ds := NatRepr(m);
    NatReprValue(m);
    DigitRunOfDigits(ds, rest);
    var t := ds + rest;
    assert t[..|ds|] == ds;
    assert t[|ds|..] == rest;
  }

  lemma NegativeNumber(i: int, rest: string)
    requires i < 0 && Delimiter(rest)
    ensures ParseNumber(IntRepr(i) + rest) == Some(Parsed(Int(i), rest))
  {
    var t := NatRepr(-i) + rest;
    DigitsSplit(-i, rest);
    assert IntRepr(i) + rest == "-" + t;
    assert ("-" + t)[1..] == t;
  }

  lemma IntRoundTrip(i: int, rest: string)
    requires Delimiter(rest)
    ensures ParseValue(Repr(Int(i)) + rest) == Some(Parsed(Int(i), rest))
  {
    var s := IntRepr(i) + rest;
    assert Repr(Int(i)) + rest == s;
    NumberOfRepr(i, rest);
    assert s[0] == '-' || IsDigit(s[0]);
    assert s[0] != '[' && s[0] != '\'' && s[0] != '"';
    SkipNoSpace(s);
    assert ParseValue(s) == ParseAtom(s);
    assert ParseAtom(s) == ParseNumber(s);
  }

  lemma StrReprOfPlain(s: string)
    requires PlainText(s)
    ensures StrRepr(s) == [QuoteOf(s)] + s + [QuoteOf(s)]
    ensures forall i :: 0 <= i < |s| ==> PlainChar(s[i]) && s[i] != QuoteOf(s)
  {
    var quote := QuoteOf(s);
    forall i | 0 <= i < |s|
      ensures PlainChar(s[i]) && s[i] != quote
    {
      assert s[i] in s;
    }
    EscapeOfPlain(s, quote);
  }

  lemma StringOfPlain(s: string, quote: char, rest: string)
    requires forall i :: 0 <= i < |s| ==> PlainChar(s[i]) && s[i] != quote
    ensures ParseString(s + [quote] + rest, quote) == Some(Parsed(Str(s), rest))
  {
    CloseQuoteOfPlain(s, quote, rest);
    assert (s + [quote] + rest)[..|s|] == s;
    assert (s + [quote] + rest)[|s| + 1..] == rest;
  }

  lemma StrRoundTrip(s: string, rest: string)
    requires PlainText(s)
    ensures ParseValue(Repr(Str(s)) + rest) == Some(Parsed(Str(s), rest))
  {
    var quote := QuoteOf(s);
    StrReprOfPlain(s);
    StringOfPlain(s, quote, rest);
    var text := [quote] + (s + [quote] + rest);
    assert Repr(Str(s)) + rest == text;
    assert text[1..] == s + [quote] + rest;
    SkipNoSpace(text);
    assert ParseAtom(text) == ParseString(text[1..], quote);
  }

  lemma KeywordRoundTrip(word: string, v: Value, rest: string)
    requires |word| > 0 && !IsSpace(word[0])
    requires Delimiter(rest)
    ensures ParseKeyword(word + rest, word, v) == Some(Parsed(v, rest))
  {
    assert (word + rest)[..|word|] == word;
    assert (word + rest)[|word|..] == rest;
  }

  /** A keyword literal read back from its repr. */
  lemma KeywordValue(word: string, v: Value, rest: string)
    requires v.Null? || v.Bool?
    requires word == Repr(v) && Delimiter(rest)
    ensures ParseValue(Repr(v) + rest) == Some(Parsed(v, rest))
  {
    var t := word + rest;
    assert word == "None" || word == "True" || word == "False";
    KeywordRoundTrip(word, v, rest);
    SkipNoSpace(t);
    assert t[0] == word[0];
  }

  /** Reading the repr of a literal, followed by a delimiter, yields the literal. */
  lemma {:induction false} ReprRoundTrip(v: Value, rest: string)
    requires IsLiteral(v)
    requires Delimiter(rest)
    ensures ParseValue(Repr(v) + rest) == Some(Parsed(v, rest))
    decreases v, 1
  {
    match v
    case Null =>
      KeywordValue("None", Null, rest);
    case Bool(b) =>
      KeywordValue(if b then "True" else "False", Bool(b), rest);
    case Int(i) =>
      IntRoundTrip(i, rest);
    case Str(s) =>
      StrRoundTrip(s, rest);
    case List(items) =>
      ListRoundTrip(items, rest);
  }

  lemma OpenBracket(body: string)
    ensures ParseValue("[" + body) == ParseListBody(body)
  {
    SkipNoSpace("[" + body);
    assert ("[" + body)[1..] == body;
  }

  lemma ListBodyElements(body: string)
    requires |body| > 0 && !IsSpace(body[0]) && body[0] != ']'
    ensures ParseListBody(body) == ParseElements(body, [])
  {
    SkipNoSpace(body);
  }

  lemma {:induction false} ListRoundTrip(items: seq<Value>, rest: string)
    requires forall i :: 0 <= i < |items| ==> IsLiteral(items[i])
    requires Delimiter(rest)
    ensures ParseValue(Repr(List(items)) + rest) == Some(Parsed(List(items), rest))
    decreases items, 5
  {
    if |items| == 0 {
      EmptyListRoundTrip(rest);
    } else {
      NonEmptyListRoundTrip(items, rest);
    }
  }

  lemma EmptyListRoundTrip(rest: string)
    ensures ParseValue(Repr(List([])) + rest) == Some(Parsed(List([]), rest))
  {
    var s := Repr(List([])) + rest;
    assert s[0] == '[' && s[1..][0] == ']' && s[1..][1..] == rest by {
      EmptyListRepr();
    }
    OpenAt(s);
    CloseAt(s[1..]);
  }

  lemma OpenAt(s: string)
    requires |s| > 0 && s[0] == '['
    ensures ParseValue(s) == ParseListBody(s[1..])
  {
    SkipNoSpace(s);
  }

  lemma CloseAt(s: string)
    requires |s| > 0 && s[0] == ']'
    ensures ParseListBody(s) == Some(Parsed(List([]), s[1..]))
  {
    SkipNoSpace(s);
  }

  lemma EmptyListRepr()
    ensures Repr(List([])) == "[]"
  {
  }

  lemma {:induction false} NonEmptyListRoundTrip(items: seq<Value>, rest: string)
    requires |items| > 0
    requires forall i :: 0 <= i < |items| ==> IsLiteral(items[i])
    requires Delimiter(rest)
    ensures ParseValue(Repr(List(items)) + rest) == Some(Parsed(List(items), rest))
    decreases items, 4
  {
    ListOpen(items, rest);
    ElementsRoundTrip(items, [], rest);
    assert [] + items == items;
  }

  lemma ListOpen(items: seq<Value>, rest: string)
    requires |items| > 0 && IsLiteral(items[0])
    ensures ParseValue(Repr(List(items)) + rest) == ParseElements(ItemsRepr(items) + "]" + rest, [])
  {
    var body := ItemsRepr(items) + "]" + rest;
    ListReprSplit(items, rest);
    OpenBracket(body);
    ItemsStart(items, rest);
    ListBodyElements(body);
  }

  lemma ListReprSplit(items: seq<Value>, rest: string)
    ensures Repr(List(items)) + rest == "[" + (ItemsRepr(items) + "]" + rest)
  {
  }

  lemma AppendHeadTail<T>(acc: seq<T>, items: seq<T>)
    requires |items| > 0
    ensures acc + [items[0]] + items[1..] == acc + items
  {
    assert items == [items[0]] + items[1..];
  }

  /** Once the first element is read, the rest of the list is read by AfterElement. */
  lemma ElementsStep(s: string, acc: seq<Value>, p: Parsed)
    requires ParseValue(s) == Some(p)
    ensures ParseElements(s, acc) == AfterElement(p.rest, acc + [p.value])
  {
  }

  lemma CloseAfter(rest: string, acc: seq<Value>)
    ensures AfterElement("]" + rest, acc) == Some(Parsed(List(acc), rest))
  {
    SkipNoSpace("]" + rest);
    assert ("]" + rest)[1..] == rest;
  }

  /** The elements repr writes after ", " start with a literal. */
  lemma ItemsStart(items: seq<Value>, rest: string)
    requires |items| > 0 && IsLiteral(items[0])
    ensures |ItemsRepr(items) + "]" + rest| > 0
    ensures !IsSpace((ItemsRepr(items) + "]" + rest)[0]) && (ItemsRepr(items) + "]" + rest)[0] != ']'
  {
    ReprStart(items[0]);
    assert ItemsRepr(items)[0] == Repr(items[0])[0];
  }

  lemma AfterComma(x: string, acc: seq<Value>)
    requires |x| > 0 && !IsSpace(x[0]) && x[0] != ']'
    ensures AfterElement(", " + x, acc) == ParseElements(x, acc)
  {
    var after := ", " + x;
    SkipNoSpace(after);
    assert after[1..] == " " + x;
    assert (" " + x)[1..] == x;
    SkipNoSpace(x);
    assert SkipSpace(" " + x) == x;
    assert AfterElement(after, acc) == ParseElements(" " + x, acc);
    ElementsSkipSpace(x, acc);
  }

  /** Reading the elements of a non-empty list and its closing bracket. */
  lemma {:induction false} ElementsRoundTrip(items: seq<Value>, acc: seq<Value>, rest: string)
    requires |items| > 0
    requires forall i :: 0 <= i < |items| ==> IsLiteral(items[i])
    requires Delimiter(rest)
    ensures ParseElements(ItemsRepr(items) + "]" + rest, acc) == Some(Parsed(List(acc + items), rest))
    decreases items, 3
  {
    if |items| == 1 {
      LastElementRoundTrip(items, acc, rest);
    } else {
      MoreElementsRoundTrip(items, acc, rest);
    }
  }

  lemma {:induction false} LastElementRoundTrip(items: seq<Value>, acc: seq<Value>, rest: string)
    requires |items| == 1 && IsLiteral(items[0])
    requires Delimiter(rest)
    ensures ParseElements(ItemsRepr(items) + "]" + rest, acc) == Some(Parsed(List(acc + items), rest))
    decreases items, 2
  {
    var head := items[0];
    var after := "]" + rest;
    assert ItemsRepr(items) + "]" + rest == Repr(head) + after;
    ReprRoundTrip(head, after);
    ElementsStep(Repr(head) + after, acc, Parsed(head, after));
    CloseAfter(rest, acc + [head]);
    assert items == [head];
  }

  lemma Associative<T>(a: seq<T>, b: seq<T>, c: seq<T>)
    ensures a + b + c == a + (b + c)
  {
  }

  lemma ItemsSplit(items: seq<Value>, rest: string)
    requires |items| > 1
    ensures ItemsRepr(items) + "]" + rest == Repr(items[0]) + (", " + (ItemsRepr(items[1..]) + "]" + rest))
  {
    var r, i := Repr(items[0]), ItemsRepr(items[1..]);
    assert ItemsRepr(items) == r + ", " + i;
    Associative(r + ", " + i, "]", rest);
    Associative(r + ", ", i, "]" + rest);
    Associative(r, ", ", i + ("]" + rest));
    Associative(i, "]", rest);
  }

  lemma {:induction false} MoreElementsRoundTrip(items: seq<Value>, acc: seq<Value>, rest: string)
    requires |items| > 1
    requires forall i :: 0 <= i < |items| ==> IsLiteral(items[i])
    requires Delimiter(rest)
    ensures ParseElements(ItemsRepr(items) + "]" + rest, acc) == Some(Parsed(List(acc + items), rest))
    decreases items, 2
  {
    var head := items[0];
    var tail := items[1..];
    var x := ItemsRepr(tail) + "]" + rest;
    var after := ", " + x;
    ItemsSplit(items, rest);
    ReprRoundTrip(head, after);
    ElementsStep(Repr(head) + after, acc, Parsed(head, after));
    ItemsStart(tail, rest);
    AfterComma(x, acc + [head]);
    ElementsRoundTrip(tail, acc + [head], rest);
    AppendHeadTail(acc, items);
  }

  /** The literal reader inverts repr on literals. */
  lemma LiteralEvalOfRepr(v: Value)
    requires IsLiteral(v)
    ensures LiteralEval(Repr(v)) == Some(v)
  {
    ReprRoundTrip(v, "");
    assert Repr(v) + "" == Repr(v);
  }
}

=== FILE: merge.dfy ===
/** The mapping merger: a raw document merged against a schema into a
    validated record, or the error that stops it. */
module Merge {
  import opened Values
  import opened Outcomes
  import opened Schemas
  import Templates

  /** The raw document as a mapping: `None` stands for the empty mapping, and
      anything else without `.keys()` is rejected. */
  function AsMapping(raw: Value): (r: Result<Record>)
    ensures r.Ok? <==> raw.Null? || raw.Dict?
    ensures r.Ok? ==> r.value == (if raw.Dict? then raw.entries else map[])
    ensures r.Err? ==> r.error == NotAMapping
  {
    match raw
    case Null => Ok(map[])
    case Dict(entries) => Ok(entries)
    case _ => Err(NotAMapping)
  }

  /** The keys of the raw document. */
  function RawKeys(raw: Value): set<string> {
    if raw.Dict? then raw.entries.Keys else {}
  }

  /** A two-argument validator accepts the field's entry in the finished record;
      fields without one accept trivially. */
  predicate CrossHolds(f: Field, record: Record) {
    match f.validator
    case Cross(check) => f.key in record && SplitVerdict(check(record[f.key], record)).0
    case _ => true
  }

  /** A one-argument validator accepts the value; fields without one accept
      trivially. */
  predicate LocalHolds(f: Field, v: Value) {
    match f.validator
    case Local(check) => SplitVerdict(check(v)).0
    case _ => true
  }

  /** The entry of a descriptor that is not nested, before any check: the raw
      value when the key is present, otherwise the descriptor's default. */
  function Chosen(input: Record, f: Field): Value {
    if f.key in input then input[f.key] else f.default
  }

  /** A merged record, or the error that stopped its merge, as the entry of
      the field that holds it. */
  function AsDictEntry(r: Result<Record>): Result<Value> {
    match r
    case Ok(m) => Ok(Dict(m))
    case Err(e) => Err(e)
  }

  /** The per-entry checks accept `v` as it stands: it conforms to a checked
      type slot, it is not a list waiting for an element merge, and the
      one-argument validator, if any, accepts it. */
  predicate Accepted(f: Field, v: Value) {
    (TypeChecked(f.spec) ==> Conforms(v, f.spec)) && !(v.List? && f.validator.Elements?) && LocalHolds(f, v)
  }

  /** The diagnostic a one-argument validator gives with its verdict on the
      value; empty for fields without one. */
  function LocalMessage(f: Field, v: Value): string {
    if f.validator.Local? then SplitVerdict(f.validator.check(v)).1 else ""
  }

  /** The diagnostic a two-argument validator gives with its verdict on the
      field's entry in the record; empty for fields without one. */
  function CrossMessage(f: Field, record: Record): string {
    if f.validator.Cross? && f.key in record then SplitVerdict(f.validator.crossCheck(record[f.key], record)).1 else ""
  }

  /** Field `i` is the first, in declaration order, whose two-argument
      validator rejects the record. */
  predicate FirstCrossRejection(fields: Schema, record: Record, i: int) {
    0 <= i < |fields| && !CrossHolds(fields[i], record) &&
    forall j :: 0 <= j < i ==> CrossHolds(fields[j], record)
  }

  /** `mergedict(raw, schema, validate, checkUnused)`. */
  function MergeDict(raw: Value, schema: Schema, validate: bool, checkUnused: bool): (r: Result<Record>)
    ensures !(raw.Null? || raw.Dict?) ==> r == Err(NotAMapping)
    ensures r.Ok? ==> r.value.Keys == Keys(schema)
    ensures r.Ok? ==> forall i :: 0 <= i < |schema| && schema[i].required ==> schema[i].key in RawKeys(raw)
    ensures r.Ok? && checkUnused ==> RawKeys(raw) <= Keys(schema)
    ensures r.Ok? && validate ==> forall i :: 0 <= i < |schema| ==> CrossHolds(schema[i], r.value)
    ensures r.Err? && !checkUnused ==> !r.error.UnusedKeys?
    decreases schema, 3
  {
    var input :- AsMapping(raw);
    var out :- ResolveFields(input, schema, validate, checkUnused, map[]);
    var failure := if validate then CrossFailure(schema, out) else None;
    if failure.Some? then Err(failure.value)
    else if checkUnused && !(input.Keys <= Keys(schema)) then Err(UnusedKeys(input.Keys - Keys(schema)))
    else Ok(out)
  }

  /** The per-field loop: each descriptor in order, its entry written into
      `acc`. */
  function ResolveFields(input: Record, fields: Schema, validate: bool, checkUnused: bool, acc: Record): (r: Result<Record>)
    ensures r.Ok? ==> r.value.Keys == acc.Keys + Keys(fields)
    ensures r.Ok? ==> forall k :: k in acc && k !in Keys(fields) ==> r.value[k] == acc[k]
    ensures r.Ok? ==> forall i :: 0 <= i < |fields| && fields[i].required ==> fields[i].key in input
    ensures r.Err? && !checkUnused ==> !r.error.UnusedKeys?
    decreases fields, 2
  {
    if |fields| == 0 then Ok(acc)
    else
      KeysOfTail(fields);
      var v :- ResolveField(input, fields[0], validate, checkUnused);
      var rest := ResolveFields(input, fields[1..], validate, checkUnused, acc[fields[0].key := v]);
      assert rest.Ok? ==> forall i :: 1 <= i < |fields| ==> fields[i] == fields[1..][i - 1];
      rest
  }

  /** One descriptor: the presence check, the value, and the per-entry checks
      when validating. */
  function ResolveField(input: Record, f: Field, validate: bool, checkUnused: bool): (r: Result<Value>)
    ensures f.required && f.key !in input ==> r == Err(MissingRequired(f.key))
    ensures r.Ok? && validate ==> (TypeChecked(f.spec) ==> Conforms(r.value, f.spec)) && LocalHolds(f, r.value)
    ensures r.Err? && !checkUnused ==> !r.error.UnusedKeys?
    decreases f, 1
  {
    if f.required && f.key !in input then Err(MissingRequired(f.key))
    else
      var v :- SelectValue(input, f, checkUnused);
      if validate then CheckValue(f, v) else Ok(v)
  }

  /** The entry before the per-entry checks. A nested sub-schema is merged with
      validation switched on whatever the caller asked for, and its unused-key
      flag forwarded; an absent one gets the sub-schema's full template. */
  function SelectValue(input: Record, f: Field, checkUnused: bool): (r: Result<Value>)
    ensures f.spec.Nested? && f.spec.default.SubSchema? && r.Ok? ==>
      r.value.Dict? && r.value.entries.Keys == Keys(f.spec.default.fields)
    ensures f.spec == Nested(PassThrough) ==> (r.Ok? <==> f.key in input)
    ensures f.spec == Nested(PassThrough) && f.key in input ==> r == Ok(input[f.key])
    ensures f.spec.Nested? && f.spec.default.SubSchema? && f.key in input ==>
      r == AsDictEntry(MergeDict(input[f.key], f.spec.default.fields, true, checkUnused))
    ensures f.spec.Nested? && f.spec.default.SubSchema? && f.key !in input ==>
      r == AsDictEntry(Templates.Template(f.spec.default.fields, true))
    ensures !f.spec.Nested? ==> r == Ok(Chosen(input, f))
    ensures r.Err? && !checkUnused ==> !r.error.UnusedKeys?
    decreases f, 0
  {
    match f.spec
    case Nested(PassThrough) =>
      if f.key in input then Ok(input[f.key]) else Err(AbsentPassThrough(f.key))
    case Nested(SubSchema(sub)) =>
      if f.key in input then
        var m :- MergeDict(input[f.key], sub, true, checkUnused);
        Ok(Dict(m))
      else
        Templates.AllIncluded(sub);
        var t :- Templates.Template(sub, true);
        Ok(Dict(t))
    case _ =>
      Ok(Chosen(input, f))
  }

  /** The per-entry checks, in order: the type check when the type slot is a
      class or a non-empty tuple, the element merge of a list against an
      element schema, and the one-argument validator. */
  function CheckValue(f: Field, v: Value): (r: Result<Value>)
    ensures TypeChecked(f.spec) && !Conforms(v, f.spec) ==> r == Err(TypeMismatch(f.key))
    ensures r.Ok? ==> (TypeChecked(f.spec) ==> Conforms(r.value, f.spec)) && LocalHolds(f, r.value)
    ensures r.Ok? && !(v.List? && f.validator.Elements?) ==> r.value == v
    ensures r.Ok? && v.List? && f.validator.Elements? ==>
      r.value.List? && |r.value.items| == |v.items| &&
      forall i :: 0 <= i < |v.items| ==> r.value.items[i].Dict? && r.value.items[i].entries.Keys == Keys(f.validator.schema)
    ensures r.Ok? && v.List? && f.validator.Elements? ==>
      forall i :: 0 <= i < |v.items| ==>
        MergeDict(v.items[i], f.validator.schema, true, false).Ok? &&
        r.value.items[i] == Dict(MergeDict(v.items[i], f.validator.schema, true, false).value)
    ensures (TypeChecked(f.spec) ==> Conforms(v, f.spec)) && !(v.List? && f.validator.Elements?) ==>
      r == if LocalHolds(f, v) then Ok(v) else Err(LocalValidationFailed(f.key, LocalMessage(f, v)))
    ensures (TypeChecked(f.spec) ==> Conforms(v, f.spec)) && v.List? && f.validator.Elements? ==>
      (r.Ok? <==> forall i :: 0 <= i < |v.items| ==> MergeDict(v.items[i], f.validator.schema, true, false).Ok?) &&
      (r.Err? ==>
        exists i :: 0 <= i < |v.items| && MergeDict(v.items[i], f.validator.schema, true, false) == Err(r.error) &&
          forall j :: 0 <= j < i ==> MergeDict(v.items[j], f.validator.schema, true, false).Ok?)
    ensures r.Err? ==> !r.error.UnusedKeys?
    decreases f, 0
  {
    if TypeChecked(f.spec) && !Conforms(v, f.spec) then Err(TypeMismatch(f.key))
    else
      var merged :- if v.List? && f.validator.Elements? then
        var items :- MergeElements(v.items, f.validator.schema);
        Ok(List(items))
      else Ok(v);
      match f.validator
      case Local(check) =>
        var (ok, message) := SplitVerdict(check(merged));
        if ok then Ok(merged) else Err(LocalValidationFailed(f.key, message))
      case _ => Ok(merged)
  }

  /** Each element of a list merged against the element schema, validated and
      without the unused-key check. */
  function MergeElements(items: seq<Value>, schema: Schema): (r: Result<seq<Value>>)
    ensures r.Ok? ==> |r.value| == |items|
    ensures r.Ok? ==> forall i :: 0 <= i < |items| ==>
      MergeDict(items[i], schema, true, false).Ok? && r.value[i] == Dict(MergeDict(items[i], schema, true, false).value)
    ensures r.Ok? <==> forall i :: 0 <= i < |items| ==> MergeDict(items[i], schema, true, false).Ok?
    ensures r.Err? ==>
      exists i :: 0 <= i < |items| && MergeDict(items[i], schema, true, false) == Err(r.error) &&
        forall j :: 0 <= j < i ==> MergeDict(items[j], schema, true, false).Ok?
    ensures r.Err? ==> !r.error.UnusedKeys?
    decreases schema, 4, |items|
  {
    if |items| == 0 then Ok([])
    else
      var head :- MergeDict(items[0], schema, true, false);
      var rest := items[1..];
      var tail := MergeElements(rest, schema);
      if tail.Err? then
        assert exists i :: 0 <= i < |items| && MergeDict(items[i], schema, true, false) == Err(tail.error) &&
          forall j :: 0 <= j < i ==> MergeDict(items[j], schema, true, false).Ok? by {
          var k :| 0 <= k < |rest| && MergeDict(rest[k], schema, true, false) == Err(tail.error) &&
            forall j :: 0 <= j < k ==> MergeDict(rest[j], schema, true, false).Ok?;
          assert rest[k] == items[k + 1];
          forall j | 0 < j < k + 1
            ensures MergeDict(items[j], schema, true, false).Ok?
          {
            assert items[j] == rest[j - 1];
          }
        }
        Err(tail.error)
      else
        assert forall i :: 0 < i < |items| ==> items[i] == rest[i - 1];
        Ok([Dict(head)] + tail.value)
  }

  /** The global pass: the first field, in declaration order, whose
      two-argument validator rejects the finished record, with that
      validator's diagnostic. */
  function CrossFailure(fields: Schema, record: Record): (r: Option<Error>)
    requires Keys(fields) <= record.Keys
    ensures r.None? <==> forall i :: 0 <= i < |fields| ==> CrossHolds(fields[i], record)
    ensures r.Some? ==>
      exists i :: FirstCrossRejection(fields, record, i) &&
        r.value == GlobalValidationFailed(fields[i].key, CrossMessage(fields[i], record))
  {
    if |fields| == 0 then None
    else
      var f := fields[0];
      KeysOfTail(fields);
      assert f.key in record;
      match f.validator
      case Cross(check) =>
        var (ok, message) := SplitVerdict(check(record[f.key], record));
        if ok then ShiftCross(fields, record, CrossFailure(fields[1..], record))
        else
          assert FirstCrossRejection(fields, record, 0);
          Some(GlobalValidationFailed(f.key, message))
      case _ => ShiftCross(fields, record, CrossFailure(fields[1..], record))
  }

  /** Lifts the answer for the tail of `fields` to `fields` when the head
      accepts. */
  function ShiftCross(fields: Schema, record: Record, tail: Option<Error>): (r: Option<Error>)
    requires |fields| > 0 && CrossHolds(fields[0], record)
    requires tail.None? <==> forall i :: 0 <= i < |fields| - 1 ==> CrossHolds(fields[1..][i], record)
    requires tail.Some? ==>
      exists i :: FirstCrossRejection(fields[1..], record, i) &&
        tail.value == GlobalValidationFailed(fields[1..][i].key, CrossMessage(fields[1..][i], record))
    ensures r == tail
    ensures r.None? <==> forall i :: 0 <= i < |fields| ==> CrossHolds(fields[i], record)
    ensures r.Some? ==>
      exists i :: FirstCrossRejection(fields, record, i) &&
        r.value == GlobalValidationFailed(fields[i].key, CrossMessage(fields[i], record))
  {
    if tail.Some? then
      var i :| FirstCrossRejection(fields[1..], record, i) &&
        tail.value == GlobalValidationFailed(fields[1..][i].key, CrossMessage(fields[1..][i], record));
      assert fields[i + 1] == fields[1..][i];
      assert forall j :: 1 <= j < i + 1 ==> fields[j] == fields[1..][j - 1];
      assert FirstCrossRejection(fields, record, i + 1);
      tail
    else
      assert forall i :: 1 <= i < |fields| ==> fields[i] == fields[1..][i - 1];
      tail
  }
}

=== FILE: merge_facts.dfy ===
/** What a successful merge guarantees about the record it returns, and how
    the two flags of the merger change its outcome. */
module MergeFacts {
  import opened Values
  import opened Outcomes
  import opened Schemas
  import opened Merge
  import Templates

  /** The per-field loop writes each descriptor's own entry. */
  lemma {:induction false} FieldsEntry(input: Record, fields: Schema, validate: bool, checkUnused: bool, acc: Record, i: nat)
    requires UniqueKeys(fields)
    requires i < |fields|
    requires ResolveFields(input, fields, validate, checkUnused, acc).Ok?
    ensures ResolveField(input, fields[i], validate, checkUnused).Ok?
    ensures ResolveFields(input, fields, validate, checkUnused, acc).value[fields[i].key] ==
      ResolveField(input, fields[i], validate, checkUnused).value
    decreases |fields|
  {
    var f := fields[0];
    var tail := fields[1..];
    UniqueTail(fields);
    var v := ResolveField(input, f, validate, checkUnused).value;
    if i > 0 {
      FieldsEntry(input, tail, validate, checkUnused, acc[f.key := v], i - 1);
    }
  }

  /** Each key of a merged record holds what its descriptor resolved to. */
  lemma RecordEntry(raw: Value, schema: Schema, validate: bool, checkUnused: bool, i: nat)
    requires UniqueKeys(schema)
    requires i < |schema|
    requires MergeDict(raw, schema, validate, checkUnused).Ok?
    ensures AsMapping(raw).Ok?
    ensures ResolveField(AsMapping(raw).value, schema[i], validate, checkUnused).Ok?
    ensures MergeDict(raw, schema, validate, checkUnused).value[schema[i].key] ==
      ResolveField(AsMapping(raw).value, schema[i], validate, checkUnused).value
  {
    FieldsEntry(AsMapping(raw).value, schema, validate, checkUnused, map[], i);
  }

  /** A field that is neither nested nor validated element-wise keeps its raw
      value when present and takes its default when absent. */
  lemma PlainEntry(raw: Value, schema: Schema, validate: bool, checkUnused: bool, i: nat)
    requires UniqueKeys(schema)
    requires i < |schema| && !schema[i].spec.Nested? && !schema[i].validator.Elements?
    requires MergeDict(raw, schema, validate, checkUnused).Ok?
    ensures MergeDict(raw, schema, validate, checkUnused).value[schema[i].key] ==
      (if schema[i].key in RawKeys(raw) then raw.entries[schema[i].key] else schema[i].default)
  {
    RecordEntry(raw, schema, validate, checkUnused, i);
  }

  /** With validation on, every entry of the record passes its descriptor's
      type check and its one-argument validator, which is given the entry
      alone. */
  lemma ValidatedEntry(raw: Value, schema: Schema, checkUnused: bool, i: nat)
    requires UniqueKeys(schema)
    requires i < |schema|
    requires MergeDict(raw, schema, true, checkUnused).Ok?
    ensures TypeChecked(schema[i].spec) ==>
      Conforms(MergeDict(raw, schema, true, checkUnused).value[schema[i].key], schema[i].spec)
    ensures LocalHolds(schema[i], MergeDict(raw, schema, true, checkUnused).value[schema[i].key])
  {
    RecordEntry(raw, schema, true, checkUnused, i);
  }

  /** A present nested field holds the merge of its raw value against the
      sub-schema, and that merge validates (its two-argument validators
      accept the sub-record) even when the outer merge does not validate. */
  lemma NestedEntry(raw: Value, schema: Schema, validate: bool, checkUnused: bool, i: nat, sub: Schema)
    requires UniqueKeys(schema)
    requires i < |schema| && schema[i].spec == Nested(SubSchema(sub))
    requires schema[i].key in RawKeys(raw)
    requires MergeDict(raw, schema, validate, checkUnused).Ok?
    ensures MergeDict(raw.entries[schema[i].key], sub, true, checkUnused).Ok?
    ensures MergeDict(raw, schema, validate, checkUnused).value[schema[i].key] ==
      Dict(MergeDict(raw.entries[schema[i].key], sub, true, checkUnused).value)
    ensures forall j :: 0 <= j < |sub| ==>
      CrossHolds(sub[j], MergeDict(raw.entries[schema[i].key], sub, true, checkUnused).value)
  {
    RecordEntry(raw, schema, validate, checkUnused, i);
  }

  /** An absent nested field holds the full template of its sub-schema,
      optional fields included. */
  lemma AbsentNestedEntry(raw: Value, schema: Schema, validate: bool, checkUnused: bool, i: nat, sub: Schema)
    requires UniqueKeys(schema)
    requires i < |schema| && schema[i].spec == Nested(SubSchema(sub))
    requires schema[i].key !in RawKeys(raw)
    requires MergeDict(raw, schema, validate, checkUnused).Ok?
    ensures Templates.Template(sub, true).Ok?
    ensures MergeDict(raw, schema, validate, checkUnused).value[schema[i].key] == Dict(Templates.Template(sub, true).value)
  {
    RecordEntry(raw, schema, validate, checkUnused, i);
  }

  /** A nested field whose default is the empty mapping must be present, and
      its raw value is copied unmerged. (An element schema in its validator
      slot would still rewrite a list value when validating.) */
  lemma PassThroughEntry(raw: Value, schema: Schema, validate: bool, checkUnused: bool, i: nat)
    requires UniqueKeys(schema)
    requires i < |schema| && schema[i].spec == Nested(PassThrough) && !schema[i].validator.Elements?
    requires MergeDict(raw, schema, validate, checkUnused).Ok?
    ensures schema[i].key in RawKeys(raw)
    ensures MergeDict(raw, schema, validate, checkUnused).value[schema[i].key] == raw.entries[schema[i].key]
  {
    RecordEntry(raw, schema, validate, checkUnused, i);
  }

  /** The unused-key check only ever turns a success into a failure: a merge
      that succeeds with the check on gives the same record with it off. */
  lemma {:induction false} UnusedCheckOnlyRejects(raw: Value, schema: Schema, validate: bool)
    requires MergeDict(raw, schema, validate, true).Ok?
    ensures MergeDict(raw, schema, validate, false) == MergeDict(raw, schema, validate, true)
    decreases schema, 3
  {
    var input := AsMapping(raw).value;
    FieldsUnused(input, schema, validate, map[]);
  }

  lemma {:induction false} FieldsUnused(input: Record, fields: Schema, validate: bool, acc: Record)
    requires ResolveFields(input, fields, validate, true, acc).Ok?
    ensures ResolveFields(input, fields, validate, false, acc) == ResolveFields(input, fields, validate, true, acc)
    decreases fields, 2
  {
    if |fields| > 0 {
      FieldUnused(input, fields[0], validate);
      var v := ResolveField(input, fields[0], validate, true).value;
      FieldsUnused(input, fields[1..], validate, acc[fields[0].key := v]);
    }
  }

  lemma {:induction false} FieldUnused(input: Record, f: Field, validate: bool)
    requires ResolveField(input, f, validate, true).Ok?
    ensures ResolveField(input, f, validate, false) == ResolveField(input, f, validate, true)
    decreases f, 1
  {
    if !(f.required && f.key !in input) {
      SelectUnused(input, f);
    }
  }

  lemma {:induction false} SelectUnused(input: Record, f: Field)
    requires SelectValue(input, f, true).Ok?
    ensures SelectValue(input, f, false) == SelectValue(input, f, true)
    decreases f, 0
  {
    match f.spec
    case Nested(SubSchema(sub)) =>
      if f.key in input {
        UnusedCheckOnlyRejects(input[f.key], sub, true);
      }
    case _ =>
  }

  /** Two mappings that agree on every key of `keys`. */
  predicate AgreeOn(a: Record, b: Record, keys: set<string>) {
    forall k :: k in keys ==> (k in a <==> k in b) && (k in a ==> a[k] == b[k])
  }

  /** The part of a mapping under the given keys. */
  function Restrict(m: Record, keys: set<string>): (r: Record)
    ensures r.Keys == m.Keys * keys
    ensures forall k :: k in r ==> r[k] == m[k]
  {
    map k | k in m && k in keys :: m[k]
  }

  lemma {:induction false} FieldsAgree(a: Record, b: Record, fields: Schema, validate: bool, checkUnused: bool, acc: Record)
    requires AgreeOn(a, b, Keys(fields))
    ensures ResolveFields(a, fields, validate, checkUnused, acc) == ResolveFields(b, fields, validate, checkUnused, acc)
    decreases |fields|
  {
    if |fields| > 0 {
      var f := fields[0];
      KeysOfTail(fields);
      assert f.key in Keys(fields);
      assert ResolveField(a, f, validate, checkUnused) == ResolveField(b, f, validate, checkUnused) by {
        assert SelectValue(a, f, checkUnused) == SelectValue(b, f, checkUnused);
      }
      match ResolveField(a, f, validate, checkUnused)
      case Ok(v) => FieldsAgree(a, b, fields[1..], validate, checkUnused, acc[f.key := v]);
      case Err(_) =>
    }
  }

  /** With the unused-key check off, keys no descriptor names are dropped: the
      merge gives the same outcome as on the document restricted to the
      schema's keys. */
  lemma ExtraKeysIgnored(entries: Record, schema: Schema, validate: bool)
    ensures MergeDict(Dict(entries), schema, validate, false) ==
      MergeDict(Dict(Restrict(entries, Keys(schema))), schema, validate, false)
  {
    FieldsAgree(entries, Restrict(entries, Keys(schema)), schema, validate, false, map[]);
  }

  /** `at[j]` is a position of `a` holding the descriptor `b[j]`: every
      descriptor of `b` is also one of `a`'s. */
  ghost predicate Covers(a: Schema, b: Schema, at: seq<int>) {
    |at| == |b| && forall j {:trigger at[j]} :: 0 <= j < |b| ==> 0 <= at[j] < |a| && a[at[j]] == b[j]
  }

  /** Whether the global pass accepts depends only on which descriptors the
      schema holds, not on their order: the schemas here hold the same
      descriptors, located through `inA` and `inB`. */
  lemma CrossOrderIrrelevant(a: Schema, b: Schema, inA: seq<int>, inB: seq<int>, record: Record)
    requires Keys(a) <= record.Keys && Keys(b) <= record.Keys
    requires Covers(a, b, inA) && Covers(b, a, inB)
    ensures CrossFailure(a, record).None? <==> CrossFailure(b, record).None?
  {
    CoveredCross(a, b, inA, record);
    CoveredCross(b, a, inB, record);
  }

  /** If every descriptor of `a` accepts, so does every descriptor of `b`. */
  lemma CoveredCross(a: Schema, b: Schema, at: seq<int>, record: Record)
    requires Covers(a, b, at)
    ensures (forall i :: 0 <= i < |a| ==> CrossHolds(a[i], record)) ==>
      (forall j :: 0 <= j < |b| ==> CrossHolds(b[j], record))
  {
    if forall i :: 0 <= i < |a| ==> CrossHolds(a[i], record) {
      forall j | 0 <= j < |b|
        ensures CrossHolds(b[j], record)
      {
        assert a[at[j]] == b[j];
      }
    }
  }

  /** `out` holds, under each key of a flat schema, the descriptor's chosen
      entry. */
  ghost predicate FlatRecord(input: Record, fields: Schema, out: Record) {
    forall i :: 0 <= i < |fields| ==> fields[i].key in out && out[fields[i].key] == Chosen(input, fields[i])
  }

  /** The per-field loop over descriptors that are not nested succeeds when
      every required key is present and, when validating, every chosen entry
      passes its checks; it then writes the chosen entries over `acc`. */
  lemma {:induction false} FlatFields(input: Record, fields: Schema, validate: bool, checkUnused: bool, acc: Record, out: Record)
    requires forall i :: 0 <= i < |fields| ==> !fields[i].spec.Nested?
    requires forall i :: 0 <= i < |fields| && fields[i].required ==> fields[i].key in input
    requires validate ==> forall i :: 0 <= i < |fields| ==> Accepted(fields[i], Chosen(input, fields[i]))
    requires FlatRecord(input, fields, out)
    requires out.Keys == acc.Keys + Keys(fields)
    requires forall k :: k in acc && k !in Keys(fields) ==> out[k] == acc[k]
    ensures ResolveFields(input, fields, validate, checkUnused, acc) == Ok(out)
    decreases |fields|
  {
    if |fields| == 0 {
      assert acc == out;
    } else {
      var f := fields[0];
      var tail := fields[1..];
      KeysOfTail(fields);
      assert ResolveField(input, f, validate, checkUnused) == Ok(Chosen(input, f)) by {
        assert SelectValue(input, f, checkUnused) == Ok(Chosen(input, f));
      }
      assert forall i :: 0 <= i < |tail| ==> tail[i] == fields[i + 1];
      FlatFields(input, tail, validate, checkUnused, acc[f.key := Chosen(input, f)], out);
    }
  }

  /** The success condition of the mapping merger on a schema with no nested
      descriptor: the raw value is a mapping or `None`, every required key is
      present, and, when validating, every chosen entry passes its checks and
      every two-argument validator accepts the record of chosen entries. The
      merge then returns that record, unless the unused-key check finds keys
      the schema does not declare; the error then names exactly those keys. */
  lemma FlatMergeSucceeds(raw: Value, schema: Schema, validate: bool, checkUnused: bool, out: Record)
    requires raw.Null? || raw.Dict?
    requires forall i :: 0 <= i < |schema| ==> !schema[i].spec.Nested?
    requires forall i :: 0 <= i < |schema| && schema[i].required ==> schema[i].key in RawKeys(raw)
    requires validate ==> forall i :: 0 <= i < |schema| ==> Accepted(schema[i], Chosen(AsMapping(raw).value, schema[i]))
    requires out.Keys == Keys(schema) && FlatRecord(AsMapping(raw).value, schema, out)
    requires validate ==> forall i :: 0 <= i < |schema| ==> CrossHolds(schema[i], out)
    ensures MergeDict(raw, schema, validate, checkUnused) ==
      if checkUnused && !(RawKeys(raw) <= Keys(schema)) then Err(UnusedKeys(RawKeys(raw) - Keys(schema))) else Ok(out)
  {
    FlatFields(AsMapping(raw).value, schema, validate, checkUnused, map[], out);
  }
}

=== FILE: outcomes.dfy ===
/** Failures of an ingestion call. Each constructor stands for one place where
    the library raises (or where Python itself raises on its behalf). */
module Outcomes {

  datatype Error =
    /** a required key is absent from the raw mapping */
    | MissingRequired(key: string)
    /** the resolved value is not an instance of the declared type */
    | TypeMismatch(key: string)
    /** a one-argument validator rejected the value */
    | LocalValidationFailed(key: string, message: string)
    /** a two-argument validator rejected the value against the finished record */
    | GlobalValidationFailed(key: string, message: string)
    /** raw keys that no descriptor consumed */
    | UnusedKeys(keys: set<string>)
    /** the raw source has no `keys()`: it is neither a mapping nor (for dicts) None */
    | NotAMapping
    /** a pass-through dict field (default `{}`) is absent: the lookup raises KeyError */
    | AbsentPassThrough(key: string)
    /** the template generator iterates a validator function as if it were a schema */
    | NotIterable(key: string)
    /** the INI merger asks for the parameter count of an element schema */
    | NotCallable(key: string)
    /** a text value is not a constant literal */
    | MalformedLiteral(text: string)

  /** Either a value or the error that aborted the computation; usable with `:-`. */
  datatype Result<+T> = Ok(value: T) | Err(error: Error) {

    predicate IsFailure() {
      Err?
    }

    function PropagateFailure<U>(): Result<U>
      requires Err?
    {
      Err(error)
    }

    function Extract(): T
      requires Ok?
    {
      value
    }
  }

  /** An optional value, for partial helpers whose failure the caller names. */
  datatype Option<+T> = None | Some(value: T)
}

=== FILE: roundtrip.dfy ===
/** Ingesting the generated defaults: merging a schema's full template
    against the same schema gives the template back, provided the schema is
    settled (unique keys, every descriptor accepts its own template entry,
    every two-argument validator accepts the template). */
module DefaultsRoundTrip {
  import opened Values
  import opened Outcomes
  import opened Schemas
  import opened Templates
  import opened Merge

  /** A schema whose full template exists and survives its own checks: keys
      are unique, every two-argument validator accepts the template, and
      every descriptor is settled. */
  predicate Settled(schema: Schema)
    decreases schema, 1
  {
    UniqueKeys(schema) &&
    Template(schema, true).Ok? &&
    (forall i :: 0 <= i < |schema| ==> SettledField(schema[i])) &&
    (forall i :: 0 <= i < |schema| ==> CrossHolds(schema[i], Template(schema, true).value))
  }

  /** A descriptor whose template entry passes its own per-entry checks
      unchanged, and whose sub-schema, if any, is settled. */
  predicate SettledField(f: Field)
    decreases f, 0
  {
    TemplateValue(f).Ok? &&
    CheckValue(f, TemplateValue(f).value) == Ok(TemplateValue(f).value) &&
    (f.spec.Nested? && f.spec.default.SubSchema? ==> Settled(f.spec.default.fields))
  }

  /** Merging the full template of a settled schema, with the unused-key
      check on, reproduces the template. */
  lemma {:induction false} TemplateMergesToItself(schema: Schema, validate: bool)
    requires Settled(schema)
    ensures MergeDict(Dict(Template(schema, true).value), schema, validate, true) == Ok(Template(schema, true).value)
    decreases schema, 2
  {
    var t := Template(schema, true).value;
    AllIncluded(schema);
    forall i | 0 <= i < |schema|
      ensures ResolveField(t, schema[i], validate, true) == TemplateValue(schema[i])
    {
      TemplateEntry(schema, true, i);
      FieldMergesToItself(t, schema[i], validate);
    }
    FoldsAgree(t, schema, validate, map[]);
    assert ResolveFields(t, schema, validate, true, map[]) == Ok(t);
  }

  /** A settled descriptor, found in the input with its own template entry,
      resolves to that entry. */
  lemma {:induction false} FieldMergesToItself(input: Record, f: Field, validate: bool)
    requires SettledField(f)
    requires f.key in input && input[f.key] == TemplateValue(f).value
    ensures ResolveField(input, f, validate, true) == TemplateValue(f)
    decreases f, 0
  {
    var tv := TemplateValue(f).value;
    match f.spec
    case Nested(SubSchema(sub)) =>
      TemplateMergesToItself(sub, true);
      assert tv == Dict(Template(sub, true).value);
      assert SelectValue(input, f, true) == Ok(tv);
    case _ =>
      assert SelectValue(input, f, true) == Ok(tv);
  }

  /** The merge loop and the template loop agree when every descriptor
      resolves to its template entry. */
  lemma {:induction false} FoldsAgree(input: Record, fields: Schema, validate: bool, acc: Record)
    requires forall i :: 0 <= i < |fields| ==> ResolveField(input, fields[i], validate, true) == TemplateValue(fields[i])
    ensures ResolveFields(input, fields, validate, true, acc) == TemplateFields(fields, true, acc)
    decreases |fields|
  {
    if |fields| > 0 {
      var f := fields[0];
      assert ResolveField(input, f, validate, true) == TemplateValue(f);
      assert forall i :: 0 <= i < |fields| - 1 ==> fields[1..][i] == fields[i + 1];
      match TemplateValue(f)
      case Ok(v) => FoldsAgree(input, fields[1..], validate, acc[f.key := v]);
      case Err(_) =>
    }
  }

  /** Without the settled condition the round trip can fail: a lone
      descriptor, not nested, whose default fails its own checked type has
      that default in its template, and merging the template with validation
      rejects it. */
  lemma UnsettledDefaultRejected(f: Field)
    requires !f.spec.Nested? && TypeChecked(f.spec) && !Conforms(f.default, f.spec)
    ensures Template([f], true) == Ok(map[f.key := f.default])
    ensures MergeDict(Dict(map[f.key := f.default]), [f], true, true) == Err(TypeMismatch(f.key))
  {
    var t := map[f.key := f.default];
    assert [f][1..] == [];
    assert TemplateValue(f) == Ok(f.default);
    assert TemplateFields([f], true, map[]) == TemplateFields([], true, t);
    assert SelectValue(t, f, true) == Ok(f.default);
    assert ResolveField(t, f, true, true) == Err(TypeMismatch(f.key));
    assert ResolveFields(t, [f], true, true, map[]) == Err(TypeMismatch(f.key));
  }

  /** Unique keys are part of the settled condition: the descriptor list may
      name a key twice. The template then holds the later descriptor's
      default, which the earlier descriptor type-checks first, so the merge
      fails even when each descriptor accepts its own default. */
  lemma DuplicateKeyRejected(a: Field, b: Field)
    requires a.key == b.key
    requires !a.spec.Nested? && !b.spec.Nested? && TypeChecked(a.spec) && TypeChecked(b.spec)
    requires !Conforms(b.default, a.spec)
    ensures Template([a, b], true) == Ok(map[a.key := b.default])
    ensures MergeDict(Dict(map[a.key := b.default]), [a, b], true, true) == Err(TypeMismatch(a.key))
  {
    var t := map[a.key := b.default];
    assert [a, b][1..] == [b];
    assert [b][1..] == [];
    assert TemplateValue(a) == Ok(a.default);
    assert TemplateValue(b) == Ok(b.default);
    assert TemplateFields([a, b], true, map[]) == TemplateFields([b], true, map[a.key := a.default]);
    assert map[a.key := a.default][b.key := b.default] == t;
    assert TemplateFields([b], true, map[a.key := a.default]) == TemplateFields([], true, t);
    assert SelectValue(t, a, true) == Ok(b.default);
    assert ResolveField(t, a, true, true) == Err(TypeMismatch(a.key));
    assert ResolveFields(t, [a, b], true, true, map[]) == Err(TypeMismatch(a.key));
  }
}

=== FILE: scenarios.dfy ===
/** The schemas and documents of the library's unit tests, and what the
    mergers make of them. */
module Scenarios {
  import opened Values
  import opened Outcomes
  import opened Schemas
  import opened Merge

  /** `intval` must not be negative; the verdict always carries its message.
      Comparing a non-number with 0 raises in Python; here it is a rejection. */
  function NonNegative(x: Value): Verdict {
    WithMessage(IsNumber(x) && Numeric(x) >= 0.0, "intval must be >= 0.")
  }

  /** `floatval + intval >= 200`, checked against the finished record. */
  function SumAtLeast200(x: Value, record: Record): Verdict {
    Bare("intval" in record && IsNumber(x) && IsNumber(record["intval"]) &&
         Numeric(x) + Numeric(record["intval"]) >= 200.0)
  }

  /** The nested schema of the tests. */
  const SubFields: Schema := [
    Field("name", true, Single(StrKind), Str("mysubdict"), NoValidator),
    Field("mylist", false, ListMarker, List([Int(1), Int(2), Int(3), Int(5)]), NoValidator)
  ]

  /** The flat fields of the main schema of the tests. */
  const NameField: Field := Field("name", true, Untyped, Str("myname"), NoValidator)
  const IntvalField: Field := Field("intval", true, Single(IntKind), Int(0), Local(NonNegative))
  const FloatvalField: Field := Field("floatval", false, Tuple({IntKind, FloatKind}), Float(0.123), Cross(SumAtLeast200))
  const BoolvalField: Field := Field("boolval", false, Single(BoolKind), Bool(true), NoValidator)

  /** The nested field of the main schema. The default slot of a nested field
      is its sub-schema, held in the type slot here, so its `default` value is
      unused. */
  const SubdictField: Field := Field("subdict", true, Nested(SubSchema(SubFields)), Null, NoValidator)

  /** The main schema of the tests, and the same without its nested field. */
  const FlatSchema: Schema := [NameField, IntvalField, FloatvalField, BoolvalField]
  const MainFields: Schema := FlatSchema + [SubdictField]

  /** The document of the dictionary ingestion test, with one key no
      descriptor names. */
  const Document: Value := Dict(map[
    "name" := Str("junk"),
    "intval" := Int(111),
    "floatval" := Int(100),
    "subdict" := Dict(map["name" := Str("subdictname")]),
    "extrakey" := Str("blah")
  ])

  const Merged: Record := map[
    "name" := Str("junk"),
    "intval" := Int(111),
    "floatval" := Int(100),
    "boolval" := Bool(true),
    "subdict" := Dict(map["name" := Str("subdictname"), "mylist" := List([Int(1), Int(2), Int(3), Int(5)])])
  ]

  const SubMerged: Record := map["name" := Str("subdictname"), "mylist" := List([Int(1), Int(2), Int(3), Int(5)])]

  /** A merge whose loop, global pass and unused-key check all succeed. */
  lemma MergeSucceeds(input: Record, schema: Schema, validate: bool, checkUnused: bool, out: Record)
    requires ResolveFields(input, schema, validate, checkUnused, map[]) == Ok(out)
    requires validate ==> forall i :: 0 <= i < |schema| ==> CrossHolds(schema[i], out)
    requires checkUnused ==> input.Keys <= Keys(schema)
    ensures MergeDict(Dict(input), schema, validate, checkUnused) == Ok(out)
  {
    assert Keys(schema) <= out.Keys;
  }

  lemma SubKeys()
    ensures Keys(SubFields) == {"name", "mylist"}
  {
    var fs := SubFields;
    assert fs[0].key == "name" && fs[1].key == "mylist";
  }

  lemma SubFieldsResolved(input: Record, checkUnused: bool)
    requires input == map["name" := Str("subdictname")]
    ensures ResolveFields(input, SubFields, true, checkUnused, map[]) == Ok(SubMerged)
  {
    var fs := SubFields;
    assert ResolveField(input, fs[0], true, checkUnused) == Ok(Str("subdictname"));
    assert ResolveField(input, fs[1], true, checkUnused) == Ok(List([Int(1), Int(2), Int(3), Int(5)]));
    FieldsStep(input, fs, true, checkUnused, map[], Str("subdictname"));
    assert fs[1..][0] == fs[1] && fs[1..][1..] == [];
    FieldsStep(input, fs[1..], true, checkUnused, map["name" := Str("subdictname")], List([Int(1), Int(2), Int(3), Int(5)]));
  }

  lemma SubdictMerged(checkUnused: bool)
    ensures MergeDict(Dict(map["name" := Str("subdictname")]), SubFields, true, checkUnused) == Ok(SubMerged)
  {
    var input := map["name" := Str("subdictname")];
    SubFieldsResolved(input, checkUnused);
    SubKeys();
    var fs := SubFields;
    forall i | 0 <= i < |fs|
      ensures CrossHolds(fs[i], SubMerged)
    {
      assert fs[i].validator == NoValidator;
    }
    MergeSucceeds(input, fs, true, checkUnused, SubMerged);
  }

  lemma FieldsStep(input: Record, fields: Schema, validate: bool, checkUnused: bool, acc: Record, v: Value)
    requires |fields| > 0 && ResolveField(input, fields[0], validate, checkUnused) == Ok(v)
    ensures ResolveFields(input, fields, validate, checkUnused, acc) ==
      ResolveFields(input, fields[1..], validate, checkUnused, acc[fields[0].key := v])
  {
  }

  lemma NameResolved(checkUnused: bool)
    ensures ResolveField(Document.entries, NameField, true, checkUnused) == Ok(Str("junk"))
  {
  }

  lemma IntvalResolved(checkUnused: bool)
    ensures ResolveField(Document.entries, IntvalField, true, checkUnused) == Ok(Int(111))
  {
  }

  lemma FloatvalResolved(checkUnused: bool)
    ensures ResolveField(Document.entries, FloatvalField, true, checkUnused) == Ok(Int(100))
  {
  }

  lemma BoolvalResolved(checkUnused: bool)
    ensures ResolveField(Document.entries, BoolvalField, true, checkUnused) == Ok(Bool(true))
  {
  }

  /** A present nested field without a validator resolves to the merge of
      its raw mapping. */
  lemma PresentNested(input: Record, f: Field, sub: Schema, validate: bool, checkUnused: bool, record: Record)
    requires f.spec == Nested(SubSchema(sub)) && f.validator.NoValidator? && f.key in input
    requires MergeDict(input[f.key], sub, true, checkUnused) == Ok(record)
    ensures ResolveField(input, f, validate, checkUnused) == Ok(Dict(record))
  {
  }

  lemma SubdictResolved(checkUnused: bool)
    ensures ResolveField(Document.entries, SubdictField, true, checkUnused) == Ok(Dict(SubMerged))
  {
    assert Document.entries["subdict"] == Dict(map["name" := Str("subdictname")]);
    SubdictMerged(checkUnused);
    PresentNested(Document.entries, SubdictField, SubFields, true, checkUnused, SubMerged);
  }

  /** The main schema resolves field by field into the record of the five
      resolved values. */
  lemma MainResolved(input: Record, validate: bool, checkUnused: bool, name: Value, intval: Value, floatval: Value, boolval: Value, subdict: Value)
    requires ResolveField(input, NameField, validate, checkUnused) == Ok(name)
    requires ResolveField(input, IntvalField, validate, checkUnused) == Ok(intval)
    requires ResolveField(input, FloatvalField, validate, checkUnused) == Ok(floatval)
    requires ResolveField(input, BoolvalField, validate, checkUnused) == Ok(boolval)
    requires ResolveField(input, SubdictField, validate, checkUnused) == Ok(subdict)
    ensures ResolveFields(input, MainFields, validate, checkUnused, map[]) ==
      Ok(map["name" := name, "intval" := intval, "floatval" := floatval, "boolval" := boolval, "subdict" := subdict])
  {
    var fs := MainFields;
    assert fs[0] == NameField && fs[1..][0] == IntvalField && fs[2..][0] == FloatvalField;
    assert fs[3..][0] == BoolvalField && fs[4..][0] == SubdictField;
    assert fs[1..][1..] == fs[2..] && fs[2..][1..] == fs[3..] && fs[3..][1..] == fs[4..] && fs[4..][1..] == [];
    var a1 := map["name" := name];
    var a2 := a1["intval" := intval];
    var a3 := a2["floatval" := floatval];
    var a4 := a3["boolval" := boolval];
    FieldsStep(input, fs, validate, checkUnused, map[], name);
    FieldsStep(input, fs[1..], validate, checkUnused, a1, intval);
    FieldsStep(input, fs[2..], validate, checkUnused, a2, floatval);
    FieldsStep(input, fs[3..], validate, checkUnused, a3, boolval);
    FieldsStep(input, fs[4..], validate, checkUnused, a4, subdict);
  }

  lemma MainFieldsResolved(checkUnused: bool)
    ensures ResolveFields(Document.entries, MainFields, true, checkUnused, map[]) == Ok(Merged)
  {
    NameResolved(checkUnused);
    IntvalResolved(checkUnused);
    FloatvalResolved(checkUnused);
    BoolvalResolved(checkUnused);
    SubdictResolved(checkUnused);
    MainResolved(Document.entries, true, checkUnused, Str("junk"), Int(111), Int(100), Bool(true), Dict(SubMerged));
  }

  lemma MainKeys()
    ensures Keys(MainFields) == {"name", "intval", "floatval", "boolval", "subdict"}
  {
    var fs := MainFields;
    assert fs[0].key == "name" && fs[1].key == "intval" && fs[2].key == "floatval";
    assert fs[3].key == "boolval" && fs[4].key == "subdict";
  }

  /** The sum validator accepts the merged record: 100 + 111 >= 200. */
  lemma CrossPasses()
    ensures Keys(MainFields) <= Merged.Keys
    ensures CrossFailure(MainFields, Merged) == None
  {
    MainKeys();
    var fs := MainFields;
    forall i | 0 <= i < |fs|
      ensures CrossHolds(fs[i], Merged)
    {
      assert fs[i] in [NameField, IntvalField, FloatvalField, BoolvalField, SubdictField];
    }
  }

  /** With the unused-key check off, defaults fill the absent fields, the
      nested mapping is merged against its sub-schema and the extra key is
      dropped. */
  lemma DictIngestion()
    ensures MergeDict(Document, MainFields, true, false) == Ok(Merged)
  {
    MainFieldsResolved(false);
    CrossPasses();
  }

  /** With it on, the same document is rejected for its extra key. */
  lemma DictIngestionUnused()
    ensures MergeDict(Document, MainFields, true, true) == Err(UnusedKeys({"extrakey"}))
  {
    MainFieldsResolved(true);
    CrossPasses();
    ExtraKey();
  }

  lemma ExtraKey()
    ensures Document.entries.Keys - Keys(MainFields) == {"extrakey"}
    ensures !(Document.entries.Keys <= Keys(MainFields))
  {
    MainKeys();
    assert Document.entries.Keys == {"name", "intval", "floatval", "subdict", "extrakey"};
  }

  /** `intval` of 0 with `floatval` left at its default of 0.123: every field
      resolves, then the sum validator rejects the record, with an empty
      message because it returns a bare flag. */
  const LowDocument: Record := map["name" := Str("myname"), "intval" := Int(0), "subdict" := Dict(map["name" := Str("subdictname")])]

  const LowMerged: Record := map[
    "name" := Str("myname"),
    "intval" := Int(0),
    "floatval" := Float(0.123),
    "boolval" := Bool(true),
    "subdict" := Dict(SubMerged)
  ]

  lemma LowFlatResolved(validate: bool, checkUnused: bool)
    ensures ResolveField(LowDocument, NameField, validate, checkUnused) == Ok(Str("myname"))
    ensures ResolveField(LowDocument, IntvalField, validate, checkUnused) == Ok(Int(0))
  {
  }

  lemma LowDefaultsResolved(validate: bool, checkUnused: bool)
    ensures ResolveField(LowDocument, FloatvalField, validate, checkUnused) == Ok(Float(0.123))
    ensures ResolveField(LowDocument, BoolvalField, validate, checkUnused) == Ok(Bool(true))
  {
  }

  lemma LowSubdictResolved(validate: bool, checkUnused: bool)
    ensures ResolveField(LowDocument, SubdictField, validate, checkUnused) == Ok(Dict(SubMerged))
  {
    assert LowDocument["subdict"] == Dict(map["name" := Str("subdictname")]);
    SubdictMerged(checkUnused);
    PresentNested(LowDocument, SubdictField, SubFields, validate, checkUnused, SubMerged);
  }

  lemma LowFieldsResolved(validate: bool, checkUnused: bool)
    ensures ResolveFields(LowDocument, MainFields, validate, checkUnused, map[]) == Ok(LowMerged)
  {
    LowFlatResolved(validate, checkUnused);
    LowDefaultsResolved(validate, checkUnused);
    LowSubdictResolved(validate, checkUnused);
    MainResolved(LowDocument, validate, checkUnused, Str("myname"), Int(0), Float(0.123), Bool(true), Dict(SubMerged));
  }

  /** The global pass moves past a head without a two-argument validator. */
  lemma CrossSkipsHead(fields: Schema, record: Record)
    requires |fields| > 0 && Keys(fields) <= record.Keys && !fields[0].validator.Cross?
    ensures Keys(fields[1..]) <= record.Keys
    ensures CrossFailure(fields, record) == CrossFailure(fields[1..], record)
  {
    KeysOfTail(fields);
  }

  /** The global pass stops at a head whose two-argument validator rejects. */
  lemma CrossStopsAtHead(fields: Schema, record: Record)
    requires |fields| > 0 && Keys(fields) <= record.Keys && fields[0].key in record
    requires fields[0].validator.Cross?
    requires !SplitVerdict(fields[0].validator.crossCheck(record[fields[0].key], record)).0
    ensures CrossFailure(fields, record) == Some(GlobalValidationFailed(fields[0].key, CrossMessage(fields[0], record)))
  {
  }

  /** Any record holding `intval` 0 and `floatval` 0.123 fails the global
      pass at `floatval`, with an empty message. */
  lemma LowSumFails(record: Record)
    requires Keys(MainFields) <= record.Keys
    requires "intval" in record && "floatval" in record
    requires record["intval"] == Int(0) && record["floatval"] == Float(0.123)
    ensures CrossFailure(MainFields, record) == Some(GlobalValidationFailed("floatval", ""))
  {
    var fs := MainFields;
    assert fs[0] == NameField && fs[1..][0] == IntvalField;
    CrossSkipsHead(fs, record);
    CrossSkipsHead(fs[1..], record);
    assert fs[1..][1..] == fs[2..];
    assert fs[2..][0] == FloatvalField;
    assert !SplitVerdict(SumAtLeast200(Float(0.123), record)).0;
    CrossStopsAtHead(fs[2..], record);
  }

  lemma LowCrossFails()
    ensures Keys(MainFields) <= LowMerged.Keys
    ensures CrossFailure(MainFields, LowMerged) == Some(GlobalValidationFailed("floatval", ""))
  {
    MainKeys();
    LowSumFails(LowMerged);
  }

  lemma CrossFieldRejection(checkUnused: bool)
    ensures MergeDict(Dict(LowDocument), MainFields, true, checkUnused) == Err(GlobalValidationFailed("floatval", ""))
  {
    LowFieldsResolved(true, checkUnused);
    LowCrossFails();
  }

  /** Without validation the same document merges. */
  lemma CrossFieldUnchecked()
    ensures MergeDict(Dict(LowDocument), MainFields, false, false) == Ok(LowMerged)
  {
    LowFieldsResolved(false, false);
  }

  /** `True` passes an `int` type check, since `bool` is a subclass of `int`. */
  lemma BoolPassesIntCheck()
    ensures CheckValue(IntvalField, Bool(true)) == Ok(Bool(true))
  {
  }
}

=== FILE: schemas.dfy ===
/** Field descriptors: the declarative schema both mergers walk, the
    validator kinds a descriptor may carry, and the normalisation of a
    validator's answer. */
module Schemas {
  import opened Values
  import Literals

  /** The `default` slot of a dict-typed descriptor: the literal `{}` (the raw
      value passes through unmerged) or the sub-schema to merge against. */
  datatype NestedDefault = PassThrough | SubSchema(fields: seq<Field>)

  /** The `type` slot of a descriptor.
      - Untyped: `None`.
      - Single: one class, such as `int`.
      - Tuple: a tuple of classes; the empty tuple is falsy and checks nothing.
      - ListMarker: the empty list `[]`; falsy, so it checks nothing, but the
        template generator treats it as "list of elements".
      - Nested: the empty dict `{}`, marking a sub-record. */
  datatype TypeSpec =
    | Untyped
    | Single(kind: Kind)
    | Tuple(kinds: set<Kind>)
    | ListMarker
    | Nested(default: NestedDefault)

  /** What a validator returns: a bare flag, or a flag with a diagnostic. */
  datatype Verdict = Bare(ok: bool) | WithMessage(ok: bool, message: string)

  /** The `validate` slot. A one-parameter callable sees only the field's
      value, a two-parameter callable also sees the whole record, and a list of
      descriptors is a schema for the elements of a list value. */
  datatype Validator =
    | NoValidator
    | Local(check: Value -> Verdict)
    | Cross(crossCheck: (Value, Record) -> Verdict)
    | Elements(schema: seq<Field>)

  /** One schema entry. For a dict-typed entry the sub-schema lives in `spec`
      and `default` is not consulted. */
  datatype Field = Field(key: string, required: bool, spec: TypeSpec, default: Value, validator: Validator)

  type Schema = seq<Field>

  /** The keys a schema declares. */
  function Keys(schema: Schema): set<string> {
    set i | 0 <= i < |schema| :: schema[i].key
  }

  /** No two descriptors of one level share a key. */
  predicate UniqueKeys(schema: Schema) {
    forall i, j :: 0 <= i < j < |schema| ==> schema[i].key != schema[j].key
  }

  lemma KeysOfTail(schema: Schema)
    requires |schema| > 0
    ensures Keys(schema) == {schema[0].key} + Keys(schema[1..])
  {
    var tail := schema[1..];
    forall k | k in Keys(schema)
      ensures k in {schema[0].key} + Keys(tail)
    {
      var i :| 0 <= i < |schema| && schema[i].key == k;
      if i > 0 {
        assert tail[i - 1].key == k;
      }
    }
    forall k | k in Keys(tail)
      ensures k in Keys(schema)
    {
      var i :| 0 <= i < |tail| && tail[i].key == k;
      assert schema[i + 1].key == k;
    }
  }

  /** The descriptors after the first keep their keys unique, and none of
      them shares the first one's key. */
  lemma UniqueTail(schema: Schema)
    requires |schema| > 0 && UniqueKeys(schema)
    ensures UniqueKeys(schema[1..])
    ensures schema[0].key !in Keys(schema[1..])
  {
    var tail := schema[1..];
    forall a, b | 0 <= a < b < |tail|
      ensures tail[a].key != tail[b].key
    {
      assert tail[a] == schema[a + 1] && tail[b] == schema[b + 1];
    }
    forall i | 0 <= i < |tail|
      ensures tail[i].key != schema[0].key
    {
      assert tail[i] == schema[i + 1];
    }
  }

  /** The descriptor's type is not None and is truthy, so it is checked. */
  predicate TypeChecked(spec: TypeSpec) {
    spec.Single? || (spec.Tuple? && spec.kinds != {})
  }

  /** `isinstance(v, type)` for a class or a tuple of classes; true for the
      other type slots, which are never checked. */
  predicate Conforms(v: Value, spec: TypeSpec) {
    match spec
    case Single(k) => IsInstance(v, k)
    case Tuple(ks) => exists k :: k in ks && IsInstance(v, k)
    case _ => true
  }

  /** `splitvalidateout`: a pair gives its flag and message, a bare flag gives
      itself and the empty message. */
  function SplitVerdict(vout: Verdict): (r: (bool, string))
    ensures r.0 == vout.ok
    ensures vout.Bare? ==> r.1 == ""
    ensures vout.WithMessage? ==> r.1 == vout.message
  {
    match vout
    case Bare(ok) => (ok, "")
    case WithMessage(ok, message) => (ok, message)
  }

  /** The two shapes of a verdict agree: re-packing any verdict as a pair
      splits the same way, and a bare flag splits like that flag paired with
      the empty message. */
  lemma VerdictShapesAgree(vout: Verdict)
    ensures SplitVerdict(WithMessage(SplitVerdict(vout).0, SplitVerdict(vout).1)) == SplitVerdict(vout)
    ensures vout.Bare? ==> SplitVerdict(vout) == SplitVerdict(WithMessage(vout.ok, ""))
  {
  }

  /** `checkInList(l, x)`: membership in a list of choices. */
  function CheckInList(l: seq<Value>, x: Value): (r: Verdict)
    ensures SplitVerdict(r).0 <==> Contains(l, x)
    ensures Contains(l, x) ==> SplitVerdict(r) == (true, "")
    ensures !Contains(l, x) ==> SplitVerdict(r).1 == Literals.Repr(x) + " is not one of " + Literals.Repr(List(l))
  {
    if Contains(l, x) then Bare(true)
    else WithMessage(false, Literals.Repr(x) + " is not one of " + Literals.Repr(List(l)))
  }

  /** A one-argument validator restricting a field to a list of choices. */
  function OneOf(choices: seq<Value>): Validator {
    Local(x => CheckInList(choices, x))
  }

  /** Every listed choice passes the choice validator. */
  lemma ChoicesAccepted(choices: seq<Value>, i: nat)
    requires i < |choices|
    ensures SplitVerdict(OneOf(choices).check(choices[i])) == (true, "")
  {
    ElementContained(choices, i);
  }
}

=== FILE: templates.dfy ===
/** The document generator: the default-populated record a schema describes,
    built without looking at any input. */
module Templates {
  import opened Values
  import opened Outcomes
  import opened Schemas

  /** The keys a template holds: the required ones, and the optional ones when
      asked for. */
  function IncludedKeys(schema: Schema, includeOptional: bool): set<string> {
    set i | 0 <= i < |schema| && (schema[i].required || includeOptional) :: schema[i].key
  }

  /** `template2dict(schema, includeOptional)`. */
  function Template(schema: Schema, includeOptional: bool): (r: Result<Record>)
    ensures r.Ok? ==> r.value.Keys == IncludedKeys(schema, includeOptional)
    ensures r.Err? ==> r.error.NotIterable?
    decreases schema, 2
  {
    TemplateFields(schema, includeOptional, map[])
  }

  /** Adds the entries of `fields`, in order, to `acc`. */
  function TemplateFields(fields: Schema, includeOptional: bool, acc: Record): (r: Result<Record>)
    ensures r.Ok? ==> r.value.Keys == acc.Keys + IncludedKeys(fields, includeOptional)
    ensures r.Ok? ==> forall k :: k in acc && k !in Keys(fields) ==> k in r.value && r.value[k] == acc[k]
    ensures r.Err? ==> r.error.NotIterable?
    decreases fields, 1
  {
    if |fields| == 0 then Ok(acc)
    else
      var f := fields[0];
      IncludedOfTail(fields, includeOptional);
      KeysOfTail(fields);
      if f.required || includeOptional then
        var v :- TemplateValue(f);
        TemplateFields(fields[1..], includeOptional, acc[f.key := v])
      else
        TemplateFields(fields[1..], includeOptional, acc)
  }

  /** The template entry of one included descriptor. A nested schema is
      generated with its optional fields whatever the caller asked for; a `[]`
      typed field with an element schema gets that schema's template, a
      mapping; a `[]` typed field with a callable validator cannot be
      generated, because the callable is iterated as if it were a schema. */
  function TemplateValue(f: Field): (r: Result<Value>)
    ensures r.Err? ==> r.error.NotIterable?
    decreases f, 0
  {
    match f.spec
    case Nested(PassThrough) => Ok(Dict(map[]))
    case Nested(SubSchema(sub)) =>
      var rec :- Template(sub, true);
      Ok(Dict(rec))
    case ListMarker =>
      (match f.validator
       case NoValidator => Ok(f.default)
       case Elements(sub) =>
         if |sub| == 0 then Ok(f.default)
         else
           var rec :- Template(sub, true);
           Ok(Dict(rec))
       case _ => Err(NotIterable(f.key)))
    case _ => Ok(f.default)
  }

  lemma IncludedOfTail(schema: Schema, includeOptional: bool)
    requires |schema| > 0
    ensures IncludedKeys(schema, includeOptional) ==
      (if schema[0].required || includeOptional then {schema[0].key} else {}) + IncludedKeys(schema[1..], includeOptional)
  {
    var tail := schema[1..];
    forall k | k in IncludedKeys(schema, includeOptional)
      ensures k in (if schema[0].required || includeOptional then {schema[0].key} else {}) + IncludedKeys(tail, includeOptional)
    {
      var i :| 0 <= i < |schema| && (schema[i].required || includeOptional) && schema[i].key == k;
      if i > 0 {
        assert tail[i - 1].key == k;
      }
    }
    forall k | k in IncludedKeys(tail, includeOptional)
      ensures k in IncludedKeys(schema, includeOptional)
    {
      var i :| 0 <= i < |tail| && (tail[i].required || includeOptional) && tail[i].key == k;
      assert schema[i + 1].key == k;
    }
  }

  /** A descriptor whose template can be generated: no `[]` typed descriptor,
      at any depth, carries a callable validator. */
  predicate GenerableField(f: Field)
    decreases f, 0
  {
    match f.spec
    case Nested(SubSchema(sub)) => GenerableSchema(sub, true)
    case ListMarker =>
      (match f.validator
       case NoValidator => true
       case Elements(sub) => |sub| == 0 || GenerableSchema(sub, true)
       case _ => false)
    case _ => true
  }

  predicate GenerableSchema(schema: Schema, includeOptional: bool)
    decreases schema, 1
  {
    forall i :: 0 <= i < |schema| && (schema[i].required || includeOptional) ==> GenerableField(schema[i])
  }

  /** Template generation fails exactly when some included descriptor, at any
      depth, pairs the list marker with a callable validator. */
  lemma {:induction false} TemplateSucceeds(schema: Schema, includeOptional: bool)
    ensures Template(schema, includeOptional).Ok? <==> GenerableSchema(schema, includeOptional)
    decreases schema, 2
  {
    FieldsSucceed(schema, includeOptional, map[]);
  }

  lemma {:induction false} FieldsSucceed(fields: Schema, includeOptional: bool, acc: Record)
    ensures TemplateFields(fields, includeOptional, acc).Ok? <==> GenerableSchema(fields, includeOptional)
    decreases fields, 1
  {
    if |fields| > 0 {
      var f := fields[0];
      var tail := fields[1..];
      assert GenerableSchema(fields, includeOptional) <==>
        ((f.required || includeOptional) ==> GenerableField(f)) && GenerableSchema(tail, includeOptional) by {
        if GenerableSchema(fields, includeOptional) {
          forall i | 0 <= i < |tail| && (tail[i].required || includeOptional)
            ensures GenerableField(tail[i])
          {
            assert tail[i] == fields[i + 1];
          }
        }
        if ((f.required || includeOptional) ==> GenerableField(f)) && GenerableSchema(tail, includeOptional) {
          forall i | 0 <= i < |fields| && (fields[i].required || includeOptional)
            ensures GenerableField(fields[i])
          {
            if i > 0 {
              assert fields[i] == tail[i - 1];
            }
          }
        }
      }
      if f.required || includeOptional {
        ValueSucceeds(f);
        match TemplateValue(f)
        case Ok(v) => FieldsSucceed(tail, includeOptional, acc[f.key := v]);
        case Err(_) =>
      } else {
        FieldsSucceed(tail, includeOptional, acc);
      }
    }
  }

  lemma {:induction false} ValueSucceeds(f: Field)
    ensures TemplateValue(f).Ok? <==> GenerableField(f)
    decreases f, 0
  {
    match f.spec
    case Nested(SubSchema(sub)) =>
      TemplateSucceeds(sub, true);
    case ListMarker =>
      match f.validator {
        case Elements(sub) =>
          if |sub| > 0 {
            TemplateSucceeds(sub, true);
          }
        case _ =>
      }
    case _ =>
  }

  /** Each included key holds its descriptor's entry. */
  lemma {:induction false} TemplateEntry(schema: Schema, includeOptional: bool, i: nat)
    requires UniqueKeys(schema)
    requires i < |schema| && (schema[i].required || includeOptional)
    requires Template(schema, includeOptional).Ok?
    ensures TemplateValue(schema[i]).Ok?
    ensures Template(schema, includeOptional).value[schema[i].key] == TemplateValue(schema[i]).value
  {
    FieldsEntry(schema, includeOptional, map[], i);
  }

  lemma {:induction false} FieldsEntry(fields: Schema, includeOptional: bool, acc: Record, i: nat)
    requires UniqueKeys(fields)
    requires i < |fields| && (fields[i].required || includeOptional)
    requires TemplateFields(fields, includeOptional, acc).Ok?
    ensures TemplateValue(fields[i]).Ok?
    ensures TemplateFields(fields, includeOptional, acc).value[fields[i].key] == TemplateValue(fields[i]).value
    decreases |fields|
  {
    var f := fields[0];
    var tail := fields[1..];
    UniqueTail(fields);
    if i > 0 {
      assert tail[i - 1] == fields[i];
    }
    if f.required || includeOptional {
      var v := TemplateValue(f).value;
      assert TemplateFields(fields, includeOptional, acc) == TemplateFields(tail, includeOptional, acc[f.key := v]);
      if i > 0 {
        FieldsEntry(tail, includeOptional, acc[f.key := v], i - 1);
      }
    } else {
      assert TemplateFields(fields, includeOptional, acc) == TemplateFields(tail, includeOptional, acc);
      FieldsEntry(tail, includeOptional, acc, i - 1);
    }
  }

  /** An included descriptor that is neither nested nor a `[]` typed field
      with a non-empty element schema holds its own default in the template. */
  lemma PlainTemplateEntry(schema: Schema, includeOptional: bool, i: nat)
    requires UniqueKeys(schema)
    requires i < |schema| && (schema[i].required || includeOptional)
    requires !schema[i].spec.Nested?
    requires !(schema[i].spec.ListMarker? && schema[i].validator.Elements? && |schema[i].validator.schema| > 0)
    requires Template(schema, includeOptional).Ok?
    ensures Template(schema, includeOptional).value[schema[i].key] == schema[i].default
  {
    TemplateEntry(schema, includeOptional, i);
  }

  /** A nested template holds every field of its sub-schema, optional ones
      included, even when the outer template leaves optional fields out. */
  lemma NestedTemplateComplete(f: Field, sub: Schema)
    requires f.spec == Nested(SubSchema(sub))
    requires TemplateValue(f).Ok?
    ensures TemplateValue(f).value.Dict?
    ensures TemplateValue(f).value.entries.Keys == Keys(sub)
  {
    AllIncluded(sub);
  }

  /** A `[]` typed field with a non-empty element schema is generated as one
      mapping holding every element field, not as a list. */
  lemma ElementTemplateIsMapping(f: Field, sub: Schema)
    requires f.spec == ListMarker && f.validator == Elements(sub) && |sub| > 0
    requires TemplateValue(f).Ok?
    ensures TemplateValue(f).value.Dict?
    ensures TemplateValue(f).value.entries.Keys == Keys(sub)
  {
    AllIncluded(sub);
  }

  /** With optional fields asked for, a template holds every declared key. */
  lemma AllIncluded(schema: Schema)
    ensures IncludedKeys(schema, true) == Keys(schema)
  {
  }
}

=== FILE: values.dfy ===
/** The dynamically typed values a configuration mapping holds. */
module Values {

  /** A Python value as far as configuration data goes. Floats are kept as
      exact reals; the library never does arithmetic on them itself. */
  datatype Value =
    | Null
    | Bool(b: bool)
    | Int(i: int)
    | Float(r: real)
    | Str(s: string)
    | List(items: seq<Value>)
    | Dict(entries: map<string, Value>)

  /** A merged configuration: field name to resolved value. */
  type Record = map<string, Value>

  /** The classes a descriptor may name as its `type`. */
  datatype Kind = NoneKind | BoolKind | IntKind | FloatKind | StrKind | ListKind | DictKind

  /** `isinstance(v, k)` for a single class. `bool` is a subclass of `int`. */
  predicate IsInstance(v: Value, k: Kind) {
    match k
    case NoneKind => v.Null?
    case BoolKind => v.Bool?
    case IntKind => v.Int? || v.Bool?
    case FloatKind => v.Float?
    case StrKind => v.Str?
    case ListKind => v.List?
    case DictKind => v.Dict?
  }

  predicate IsNumber(v: Value) {
    v.Bool? || v.Int? || v.Float?
  }

  /** The numeric value of a bool, int or float (True is 1). */
  function Numeric(v: Value): real
    requires IsNumber(v)
  {
    match v
    case Bool(b) => if b then 1.0 else 0.0
    case Int(i) => i as real
    case Float(r) => r
  }

  /** Python's `==`: numbers compare by value across bool, int and float;
      lists compare element-wise and dicts key-wise. */
  predicate Equal(a: Value, b: Value) {
    if IsNumber(a) && IsNumber(b) then Numeric(a) == Numeric(b)
    else match (a, b)
      case (Null, Null) => true
      case (Str(s), Str(t)) => s == t
      case (List(xs), List(ys)) =>
        |xs| == |ys| && forall i :: 0 <= i < |xs| ==> Equal(xs[i], ys[i])
      case (Dict(m), Dict(n)) =>
        m.Keys == n.Keys && forall k :: k in m ==> Equal(m[k], n[k])
      case _ => false
  }

  /** Python's `x in l` for a list `l`. */
  predicate Contains(l: seq<Value>, x: Value) {
    exists i :: 0 <= i < |l| && Equal(x, l[i])
  }

  lemma {:induction false} EqualReflexive(v: Value)
    ensures Equal(v, v)
  {
    match v
    case List(xs) =>
      forall i | 0 <= i < |xs|
        ensures Equal(xs[i], xs[i])
      {
        EqualReflexive(xs[i]);
      }
    case Dict(m) =>
      forall k | k in m
        ensures Equal(m[k], m[k])
      {
        EqualReflexive(m[k]);
      }
    case _ =>
  }

  /** Every element of a list is `in` it. */
  lemma ElementContained(l: seq<Value>, i: nat)
    requires i < |l|
    ensures Contains(l, l[i])
  {
    EqualReflexive(l[i]);
  }
}
